=== FILE: README.md ===
# weather-cli forecast pipeline, modelled in Dafny

This project models the forecast pipeline of the `wthr` weather command-line tool. The tool takes
a place name and some forecast flags, looks the place up, asks the Open-Meteo forecast endpoint
for the current weather and/or a daily and/or an hourly forecast, validates the answer against
its record schema, and prints a list of panels. The model covers that path from end to end:

- `schema.dfy` (module `Schema`) covers the forecast kinds (`ForecastType`) and the three record
  variants (`CurrentForecast`, `DailyForecast`, `HourlyForecast`) on their shared base. Each field
  has an internal name, an optional provider alias, a type tag and a required flag. The module
  also holds `get_request_fields` and record validation (`model_validate`).
- `timeseries.dfy` (module `Timeseries`) is `_normalize_timeseries`, which turns a column block
  into rows. It also defines `Column`, which reads a column back out of the rows; that gives the
  normalizer a round-trip partner.
- `geo.dfy` (module `Geo`) is `get_location`: a cache lookup first, then the geocoder, then a
  cache write. The legacy client's version, which has no cache, is modelled too.
- `request.dfy` (module `Request`) is the parameter dict that `get_weather` builds. It holds the
  field lists and default counts of the three client generations: the live client, the
  superseded snapshot and the legacy client.
- `response.dfy` (module `Response`) is `_parse_weather_response`, plus the legacy
  `_normalize_response`.
- `mode.dfy` (module `Mode`) is the if/elif chain of the `weather` command. It turns `-d`,
  `--days`, `-h`, `--hours` and `--mixed` into a forecast kind and counts.
- `formatter.dfy` (module `Formatter`) covers the weather-code table, the temperature and
  weather-code style classifiers, and which panels `format_weather` emits. Panels are abstract
  tags.
- `cli.dfy` (module `Cli`) is the `weather` command as a whole. It comes in two versions: as
  written, and with the display limited by the clamped counts (see Findings).
- `wrappers.dfy` (`Option`, `Result`, `Min`, `Max`) and `json.dfy` (JSON `Value`, Python
  truthiness, `len`) are shared definitions.

The live client is `src/wthr/api/weather_client.py`. The superseded snapshot
`src/wthr/api/api_client.py` carries the same `get_location` (apart from the key its location dict
uses for the display name, below), parameter composition, parse and normalizer, so each of these
is modelled once. The three copies of `_normalize_timeseries`
(`weather_client.py:154-174`, `src/wthr/api/api_client.py:192-212`,
`src/utils/api_client.py:218-238`) are one function: `Timeseries.NormalizeColumns`. Where the
client generations differ, the difference is a set of constants: the field lists
(`SchemaLists`, which the live client and the snapshot share, and `LegacyLists`) and the default counts (`LiveDefaults`,
`SnapshotDefaults`, `LegacyDefaults`).

Several things are parameters rather than computations:

- the location cache, which is an abstract map;
- its key folding (`name.lower()`);
- the geocoder;
- `round(x, 2)`;
- the forecast endpoint (`fetch`).

The display name of a place has three spellings in the source: `location_name` in
`src/wthr/models/weather.py:11`, `location_display_name` in the live client and the formatter,
and `location.name` in the snapshot, whose `get_location` builds its location dict under the key `"name"` (`src/wthr/api/api_client.py:86`). The model keeps one field, `displayName`.

## Model

| member | source | states |
|---|---|---|
| Schema.FromWireName | src/wthr/models/forecast.py:9-15 | A string names a forecast kind exactly when it is one of "current", "daily", "hourly" or "mixed", and the kind found has that value. |
| Schema.WireName | src/wthr/models/forecast.py:9-15 | Every kind's value is one of the four enum strings. |
| Schema.ForecastKindMembers | src/wthr/models/forecast.py:9-15 | `ForecastType` has exactly four members with four distinct values, and each member is recovered from its value. |
| Schema.KindBlocks | src/wthr/api/weather_client.py:100-109 | Every kind asks for at least one block, and only `Mixed` asks for all three. |
| Schema.RequestFields | src/wthr/models/forecast.py:27-30 | `get_request_fields()` sends at most one name per field, and never an empty name. |
| Schema.RequestFieldsMembers | src/wthr/models/forecast.py:27-30 | A name is in `get_request_fields()` exactly when it is non-empty and some declared field has it as its alias. An empty alias is falsy and is skipped. |
| Schema.EmptyAliasSkipped | src/wthr/models/forecast.py:30 | A field whose alias is the empty string is left out of the list, exactly like a field with no alias. |
| Schema.RequestFieldsAppend | src/wthr/models/forecast.py:27-30 | The request list of an inherited class is the base fields' aliases followed by the subclass's own, in declaration order. |
| Schema.AllAliasedRequested | src/wthr/models/forecast.py:27-30 | When every field has a non-empty alias, the list is those aliases, one per field, in declaration order. |
| Schema.VariantRequested | src/wthr/models/forecast.py:18-30 | Every variant's list starts with `weather_code`, followed by the list of the fields the subclass declares itself. |
| Schema.CurrentOwnRequested | src/wthr/models/forecast.py:33-47 | `CurrentForecast` adds temperature_2m, apparent_temperature, wind_speed_10m, wind_direction_10m, relative_humidity_2m and is_day, in that order. |
| Schema.DailyOwnRequested | src/wthr/models/forecast.py:50-69 | `DailyForecast` adds its nine aliases in declaration order, from temperature_2m_max to sunset. |
| Schema.HourlyOwnRequested | src/wthr/models/forecast.py:72-89 | `HourlyForecast` adds its six aliases in declaration order, ending with cloud_cover. |
| Schema.UnaliasedNeverRequested | src/wthr/models/forecast.py:27-30 | A field with no alias is skipped: its name is not requested unless another field uses it as an alias. |
| Schema.TimeNotDeclared | src/wthr/models/forecast.py:24-30 | If no field is aliased `time`, then `time` is not in the request list. |
| Schema.TimeNeverRequested | src/wthr/models/forecast.py:24-25 | For every variant, `time` is never requested and `weather_code` is the first requested field. |
| Schema.CurrentRequestFields | src/wthr/models/forecast.py:33-47 | The current list is exactly weather_code, temperature_2m, apparent_temperature, wind_speed_10m, wind_direction_10m, relative_humidity_2m, is_day. |
| Schema.DailyRequestFields | src/wthr/models/forecast.py:50-69 | The daily list is exactly the ten aliases in declaration order, ending precipitation_probability_max, precipitation_sum, sunrise, sunset. |
| Schema.HourlyRequestFields | src/wthr/models/forecast.py:72-89 | The hourly list is exactly seven entries and ends with cloud_cover. |
| Schema.Problems | src/wthr/models/forecast.py:18-89 | The list of failing fields is empty exactly when every declared field validates. |
| Schema.Validate | src/wthr/models/forecast.py:18-89 | `model_validate` succeeds exactly on an object where every declared field validates. The record keeps its variant. A failure on an object names at least one field, and every name it reports belongs to a declared field that fails. |
| Schema.ExtractContents | src/wthr/models/forecast.py:18-89 | With unique field names, a field is in the record exactly when its input key holds a non-null value, and it holds that value. |
| Schema.VariantNamesUnique | src/wthr/models/forecast.py:33-89 | No variant declares an internal name twice, so record fields cannot shadow one another. |
| Schema.RequiredKeysMembers | src/wthr/models/forecast.py:18-89 | A key is required exactly when some field without a default reads it. |
| Schema.RequiredKeysPresent | src/wthr/models/forecast.py:18-89 | When validation succeeds, every required key was present in the object. |
| Schema.ValidatedRecord | src/wthr/models/forecast.py:37-89 | A validated record holds exactly the fields whose key was present and non-null, under their internal names. An optional field that was missing stays absent. |
| Schema.CurrentRequiredKeys | src/wthr/models/forecast.py:33-47 | A current object must hold time, weather_code, temperature_2m, wind_speed_10m, relative_humidity_2m and is_day. |
| Schema.DailyRequiredKeys | src/wthr/models/forecast.py:50-69 | A daily row must hold time, weather_code, both temperatures, precipitation_probability_max, sunrise and sunset. |
| Schema.HourlyRequiredKeys | src/wthr/models/forecast.py:72-89 | An hourly row needs only time, weather_code and temperature_2m. |
| Schema.CurrentValidation | src/wthr/models/forecast.py:37-47 | A validated current record has is_day equal to 0 or 1. If apparent_temperature or wind_direction_10m was left out, it stays absent. |
| Schema.AnsweredRequestValidates | src/wthr/models/forecast.py:18-89 | An object that answers every requested alias with a conforming value, plus a conforming `time`, validates: the request list and validation agree. |
| Timeseries.RowAt | src/wthr/api/weather_client.py:167-172 | Row i holds key k exactly when column k is a list longer than i, and then holds its element i. |
| Timeseries.NormalizeColumns | src/wthr/api/weather_client.py:154-174 | Returns [] without `time`. Raises exactly when `len(time)` is undefined. Otherwise returns `len(time)` rows with index-aligned contents, and `time` is in every row when it is a list. |
| Timeseries.NormalizeBlock | src/wthr/api/weather_client.py:154-162 | On a dict it is the column normalizer. A falsy block gives []. A truthy number raises. Any other non-dict gives [] or raises. |
| Timeseries.ColumnOfRows | src/wthr/api/weather_client.py:164-172 | Reading a list column back from the first n rows gives the list cut at min(n, its length), so a short array is a prefix and is never shifted. |
| Timeseries.ColumnOfNonList | src/wthr/api/weather_client.py:169-171 | A key that is absent or not a list appears in no row. |
| Timeseries.NormalizeRoundTrip | src/wthr/api/weather_client.py:154-174 | On a block whose columns are all as long as `time`, normalizing and then reading each column back restores the block exactly. |
| Timeseries.ShortArrayExample | src/wthr/api/weather_client.py:167-172 | For `{"time": [t0, t1], "x": [5]}` the rows are `{time: t0, x: 5}` and `{time: t1}`. |
| Geo.GetLocation | src/wthr/api/weather_client.py:30-61 | A cache hit is returned with no geocoder call. A miss geocodes. An empty answer fails and leaves the cache as it was. Otherwise the first candidate, rounded, is returned and saved under the folded query. |
| Geo.CachedEntry | src/wthr/utils/storage/cache_storage.py:56-65 | `save_location` keeps the display name and stores `round(x, 2)` of both coordinates, rounding them again. A place whose coordinates are already rounded is stored unchanged. |
| Geo.SecondLookupHitsCache | src/wthr/api/weather_client.py:32-35 | After a successful lookup, a second lookup of the same name hits the cache. It returns the same place when rounding is idempotent. |
| Geo.LookupTouchesOnlyItsKey | src/wthr/api/weather_client.py:53-58 | A lookup changes no cache entry except the one for its own query. |
| Geo.LegacyGetLocation | src/utils/api_client.py:77-93 | The legacy lookup fails exactly on an empty geocoder answer, and otherwise returns the first candidate unrounded. |
| Geo.LiveLookupExtendsLegacy | src/wthr/api/weather_client.py:37-51 | On a cache miss the live lookup fails exactly when the legacy one does, and otherwise returns the same place with rounded coordinates. |
| Request.Clamp | src/wthr/api/weather_client.py:103-109 | `min(max(x, lo), hi)` is always in [lo, hi], equals x when x is in range, and saturates at either end. |
| Request.ClampMonotone | src/wthr/api/weather_client.py:103-109 | Clamping is monotone and idempotent. |
| Request.SchemaListsFromFields | src/wthr/api/weather_client.py:100-108 | The lists the live client sends are the `get_request_fields()` lists of the three variants. The snapshot at src/wthr/api/api_client.py:138-147 makes the same calls. |
| Request.Compose | src/wthr/api/weather_client.py:92-109 | The fixed five keys come from the location and settings. Each block, and its count, is present exactly when the kind implies it, and carries the client's field list. Each count sent is `min(max(x, 1), 16)` or `min(max(x, 1), 168)` of the one passed in: always in range, and unchanged when already in range. |
| Request.ComposeWithDefaults | src/wthr/api/weather_client.py:63-109 | Without explicit counts, a block gets its count exactly when the kind implies it, and defaults already within range are sent unchanged. |
| Request.ParamKeysByKind | src/wthr/api/weather_client.py:92-109 | For each kind, the exact key set of the parameter dict. `Current` never sends `daily` or `hourly`. |
| Request.DefaultCounts | src/wthr/api/weather_client.py:63-68 | Without explicit counts, the live client asks for 4 days and 12 hours. The snapshot's defaults (src/wthr/api/api_client.py:101-106) give the same parameters. The legacy client asks for 1 day and 24 hours. |
| Request.LegacyCurrentMatchesSchema | src/utils/api_client.py:132-146 | The legacy hard-coded current list equals the schema's current list. |
| Request.LegacyDailyReordered | src/utils/api_client.py:148-164 | The legacy daily list is the schema's list with sunrise and sunset moved before the two precipitation fields, so position 6 differs. |
| Request.LegacyHourlyLacksCloudCover | src/utils/api_client.py:166-179 | The legacy hourly list has six entries: the schema's list without the final cloud_cover. |
| Mode.OrDefault | src/wthr/main.py:107-110 | `if not x: x = default` with a non-zero default always leaves a truthy count. A truthy count is kept, and any change is to the default. |
| Mode.OrDefaultIdempotent | src/wthr/main.py:107-110 | Defaulting an already defaulted count changes nothing. |
| Mode.Resolve | src/wthr/main.py:103-118 | Each kind is given by an exact condition on the flags, one per branch of the chain. A kind that needs a count gets a non-zero one, either as given or defaulted to 4 or 12. A count the kind does not need is left as given and is falsy. |
| Mode.ResolveExamples | src/wthr/main.py:103-118 | No flag gives Current; `-d` gives 4 days; `--hours 6` gives 6 hours; `-d --hours 6` gives Mixed 4/6; `--mixed` gives Mixed 4/12. |
| Mode.ZeroIsNotGiven | src/wthr/main.py:103-113 | `--days 0` alone gives Current, and `-d --days 0` gives Daily with 4 days. |
| Mode.ZeroLikeAbsent | src/wthr/main.py:103-118 | Replacing an explicit 0 count by no count changes neither the kind nor the resolved days. |
| Response.ValidateAll | src/wthr/api/weather_client.py:138-141 | The comprehension succeeds exactly when every row validates, giving one record per row in order. Otherwise it reports the first failing row, and all rows before it validated. |
| Response.Parse | src/wthr/api/weather_client.py:119-152 | The parse succeeds exactly when every implied block that is present is well formed. A branch is set exactly when the kind implies it and the payload holds it. Each record is the validated payload. A failure names an implied, present block, and it is the first malformed one in the order current, daily, hourly: every block checked before it was well formed. A failed `current` carries its validation error. A failed series carries the normalizer's error, or else the index and error of its first invalid row. |
| Response.KindGatesBlocks | src/wthr/api/weather_client.py:128-146 | A Daily parse leaves `current` and `hourly` unset even when the payload carries them. |
| Response.OneBadRowFailsParse | src/wthr/api/weather_client.py:134-141 | One invalid daily row fails the whole parse. |
| Response.MalformedDailyIsReported | src/wthr/api/weather_client.py:128-141 | When `current` is well formed and a requested `daily` block is malformed, the parse raises on `daily`, with the normalizer's error or the first invalid row. |
| Response.LegacyNormalizeResponse | src/utils/api_client.py:189-216 | Branches are gated on the kind and on key presence. `current` is copied verbatim and the series are normalized. The call fails exactly where the normalizer does. |
| Response.LiveParseValidatesLegacyRows | src/wthr/api/weather_client.py:119-152 | When the live parse succeeds, the legacy normalization succeeds with the same branches. Each live record is the validated legacy row at the same index. |
| Formatter.WeatherInfo | src/wthr/utils/formatter.py:12-43 | A listed code gives the table's description. The fallback "Неизвестно" is returned exactly for the codes missing from the table, since no listed code is described that way. |
| Formatter.TempBandOf | src/wthr/utils/formatter.py:53-66 | The chosen band's bounds contain the temperature. |
| Formatter.TempStyle | src/wthr/utils/formatter.py:53-66 | Each style holds exactly on its band: "bold red" at 30 and above, "orange1" on [20, 30), "yellow" on [10, 20), "light_green" on [0, 10), "cyan" on [-10, 0), and "bold cyan" below -10. |
| Formatter.BandsPartition | src/wthr/utils/formatter.py:53-66 | Every temperature lies in exactly one of the six bands. |
| Formatter.BandMonotone | src/wthr/utils/formatter.py:53-66 | A higher temperature never gets a colder band. |
| Formatter.WeatherStyle | src/wthr/utils/formatter.py:75-90 | Each style is chosen exactly on its code range, including "bright_blue " with its trailing space; every other code is white. |
| Formatter.ShowersAreWhite | src/wthr/utils/formatter.py:75-90 | The shower codes 80-82 are in the description table but are styled white. |
| Formatter.SlicePrefix | src/wthr/utils/formatter.py:229 | Python's `s[:n]`: a prefix of s, of length min(n, len s) for n >= 0, and with the last -n elements dropped for n < 0. |
| Formatter.FormatHourly | src/wthr/utils/formatter.py:219-263 | One hourly panel holding exactly the first min(limit, len) forecasts, in order. |
| Formatter.DailyShown | src/wthr/utils/formatter.py:288-290 | A missing, zero or negative `show_daily` shows no day. A positive one shows min(show_daily, days returned) days, and never more than either. |
| Formatter.HourlyShown | src/wthr/utils/formatter.py:292-293 | The hourly panel appears whenever hourly rows came back and `show_hourly` is positive. A missing, zero or negative `show_hourly` shows no hourly panel. A shown panel holds between one and `show_hourly` rows. |
| Formatter.DailyPanels | src/wthr/utils/formatter.py:288-290 | One daily panel per shown day, for `daily[:show_daily]`, in order. |
| Formatter.FormatWeather | src/wthr/utils/formatter.py:266-294 | The header comes first, then the current panel when current is set, then the shown days, then at most one hourly panel, last. |
| Formatter.PanelKinds | src/wthr/utils/formatter.py:272-293 | The header is only at position 0, the current panel only at position 1, the days at exactly the positions after them, and the hourly panel only at the end. |
| Formatter.PanelsOrdered | src/wthr/utils/formatter.py:272-293 | The panel kinds never go backwards: header, current, days, hours. |
| Cli.RequestFor | src/wthr/main.py:134-139 | Each block, and its count, is requested exactly when the resolved kind implies it, and the counts are the resolved ones clamped into range. With no forecast flag only `current` is requested. The request is for the found place's latitude and longitude. It uses the client's default settings: timezone "auto" and no units. Each block asks for the `SchemaLists` list of its variant. |
| Cli.RunWeather | src/wthr/main.py:120-147 | An unknown place ends the command cleanly, with the cache as the lookup left it. Once the place is found, panels are shown exactly when the answer parses: they are `format_weather` of the parsed answer with the resolved counts, starting with the place's header. Otherwise the command ends with that parse error. |
| Cli.DailyPanelsMatchRequest | src/wthr/main.py:134-146 | With an in-range day count, the request asks for that many days, and the display shows that many or as many as came back. |
| Cli.NegativeDaysShowNothing | src/wthr/main.py:134-146 | As written, `--days -2` requests one day but prints only the header. |
| Cli.DisplayCounts | src/wthr/main.py:141-146 | The corrected display counts lie in [1,16] and [1,168] for the blocks the kind needs; the other counts are unchanged. |
| Cli.RunWeatherClamped | src/wthr/main.py:120-147 | The corrected command ends exactly as the command as written does: not found, parse failure with the same error, or panels. The only difference is that the display receives the clamped counts. |
| Cli.ClampedShowsWhatWasRequested | src/wthr/main.py:134-146 | With clamped counts, the days shown are exactly the days requested, or as many as came back; the hourly panel appears whenever hours came back. |
| Cli.ClampedAgreesInRange | src/wthr/main.py:134-146 | When the counts are in range, the corrected command prints exactly what the command as written prints. |

## Left out

- HTTP transport is left out because it is network I/O. This covers the session, adapters,
  retries, timeouts, `_get` and the context-manager methods of both `api_client.py` files. The
  geocoder and the forecast endpoint are function parameters instead. A transport error, which
  would escape the command, is not modelled.
- File-backed storage is left out because it is file I/O. This covers `storage.py`,
  `storage/storage.py`, `storage/cache_storage.py` and `storage/config_storage.py`. The
  location cache is an abstract map, and the cache's key folding (`name.lower()`) is the
  `lower` parameter.
- `round(x, 2)` is left out because it is floating-point behaviour. It is the uninterpreted
  `round2` parameter. `save_location` rounds the already rounded coordinates again, and the
  model keeps that second application.
- Pydantic coercions are left out: parsing ISO strings into datetimes and lax int/float
  conversion. Validation checks key presence and an abstract JSON type tag per field.
  Accepting `null` for optional fields is modelled.
- `Schema.Validate` reports the failing field names in declaration order. Pydantic's error
  objects, which carry messages and locations, are not modelled.
- Rich rendering is left out: Panel/Table/Text construction, `colorize_temp`'s `:.0f`
  formatting, `format_datetime`, and the current/daily panel layouts. Each panel is a tag
  carrying the record or records it shows.
- Typer command plumbing is left out, as it is interactive I/O. This covers prompting for a
  place, the configured default place, and the `set`/`get`/`clear` commands. The `weather`
  command's place argument is a plain string.
- The stub `src/main.py`, the `__init__.py` re-exports, and the broken import in
  `src/models/__init__.py` are not part of this model.
- The legacy client's `get_weather` returns plain dicts. Its `location` string (taken from the
  lookup dict with "Unknown" as the default) is a parameter of
  `Response.LegacyNormalizeResponse`.
- `Geo.LegacyGetLocation` raises a plain `Exception` with a message in the source. The model uses
  the same `LocationNotFound` tag as the live client.
- `Request.SchemaListsFromFields`: the live client and the snapshot compute their lists with
  `get_request_fields()` on every call. The model writes those lists out once as the constant
  `SchemaLists`, and this lemma proves the constant equal to what `get_request_fields()` yields.
  The snapshot's `get_weather` makes the same calls, with the same clamps, as the live
  client's, so it has no separate composer or lemma.

## Findings

| source | as written | input that shows it | evidently intended | confidence | as-written member | corrected member |
|---|---|---|---|---|---|---|
| src/wthr/main.py:134-146 | The resolved `days`/`hours` go unchanged to both `get_weather` and `format_weather`. The request clamps a negative count up to 1, but `format_weather` drops a non-positive count. | `weather Paris --days -2`: the kind is Daily, one day is requested and fetched, and only the header panel is printed. `--hours -5` does the same for the hourly panel. | The display shows what was requested: the clamped counts. | medium, not executed | Cli.NegativeDaysShowNothing | Cli.ClampedShowsWhatWasRequested |

=== FILE: cli.dfy ===
/** The `weather` command end to end: resolve the forecast mode from the
    flags, look the place up, compose the request, parse what the provider
    returns for it, and choose the panels to print. The cache, geocoder,
    rounding, key folding and the forecast endpoint are parameters. */
module Cli {
  import opened Wrappers
  import opened Json
  import opened Schema
  import opened Geo
  import opened Request
  import opened Response
  import opened Mode
  import opened Formatter

  /** What the command ends with, and the location cache afterwards. */
  datatype Outcome =
    | NotFound(query: string, cache: LocationCache)          // "Локация '…' не найдена", clean return
    | ParseFailed(error: ParseError, cache: LocationCache)   // ValidationError or TypeError escapes
    | Shown(panels: seq<Panel>, cache: LocationCache)

  /** The request the command sends for a resolved location. */
  function RequestFor(flags: Flags, loc: Location): (p: Params)
    // the request is for the place found, with the client's default settings
    ensures p.latitude == loc.latitude && p.longitude == loc.longitude
    ensures p.timezone == "auto" && p.temperatureUnit.None? && p.windSpeedUnit.None?
    // and each block asks for the schema's own field list
    ensures p.current.Some? ==> p.current.value == SchemaLists.current
    ensures p.daily.Some? ==> p.daily.value == SchemaLists.daily
    ensures p.hourly.Some? ==> p.hourly.value == SchemaLists.hourly
    ensures p.current.Some? <==> IncludesCurrent(Resolve(flags).kind)
    ensures p.daily.Some? <==> IncludesDaily(Resolve(flags).kind)
    ensures p.hourly.Some? <==> IncludesHourly(Resolve(flags).kind)
    ensures p.forecastDays.Some? <==> IncludesDaily(Resolve(flags).kind)
    ensures p.forecastHours.Some? <==> IncludesHourly(Resolve(flags).kind)
    // the counts requested are the resolved counts, clamped
    ensures p.forecastDays.Some? ==> p.forecastDays.value == Clamp(Resolve(flags).days.value, MinCount, MaxForecastDays)
    ensures p.forecastHours.Some? ==> p.forecastHours.value == Clamp(Resolve(flags).hours.value, MinCount, MaxForecastHours)
    // with no forecast flag only the current block is requested
    ensures !flags.mixed && !WantsDaily(flags) && !WantsHourly(flags) ==>
      p.current.Some? && p.daily.None? && p.hourly.None?
  {
    var res := Resolve(flags);
    Compose(SchemaLists, loc, res.kind, res.days, res.hours, DefaultSettings)
  }

  /** The command as written: the resolved counts go unchanged both to the
      request, which clamps them, and to the display, which does not. */
  function RunWeather(
    query: string,
    flags: Flags,
    cache: LocationCache,
    lower: string -> string,
    geocode: string -> seq<Candidate>,
    round2: real -> real,
    fetch: Params -> map<string, Value>
  ): (o: Outcome)
    ensures o.NotFound? <==> GetLocation(cache, query, lower, geocode, round2).result.Failure?
    ensures o.cache == GetLocation(cache, query, lower, geocode, round2).cache
    // once the place is found, the command shows panels exactly when the
    // answer parses, and otherwise ends with that parse error
    ensures
      var lookup := GetLocation(cache, query, lower, geocode, round2);
      lookup.result.Success? ==>
        var loc := lookup.result.value;
        var res := Resolve(flags);
        var parsed := Parse(fetch(RequestFor(flags, loc)), res.kind, loc.displayName);
        && (o.Shown? <==> parsed.Success?)
        && (o.ParseFailed? <==> parsed.Failure?)
        && (o.ParseFailed? ==> o.error == parsed.error)
        && (o.Shown? ==>
              && o.panels == FormatWeather(parsed.value, res.days, res.hours)
              && o.panels[0] == Header(loc.displayName))
  {
    var res := Resolve(flags);
    var lookup := GetLocation(cache, query, lower, geocode, round2);
    match lookup.result
    case Failure(_) => NotFound(query, lookup.cache)
    case Success(loc) =>
      match Parse(fetch(RequestFor(flags, loc)), res.kind, loc.displayName)
      case Failure(e) => ParseFailed(e, lookup.cache)
      case Success(w) => Shown(FormatWeather(w, res.days, res.hours), lookup.cache)
  }

  /** With a count in range, the daily panels shown are the first `days`
      records the provider returned, which is what the request asked for. */
  lemma DailyPanelsMatchRequest(
    query: string, flags: Flags, cache: LocationCache, lower: string -> string,
    geocode: string -> seq<Candidate>, round2: real -> real, fetch: Params -> map<string, Value>
  )
    requires IncludesDaily(Resolve(flags).kind)
    requires RunWeather(query, flags, cache, lower, geocode, round2, fetch).Shown?
    ensures
      var loc := GetLocation(cache, query, lower, geocode, round2).result.value;
      var w := Parse(fetch(RequestFor(flags, loc)), Resolve(flags).kind, loc.displayName).value;
      var days := Resolve(flags).days.value;
      1 <= days <= MaxForecastDays && w.daily.Some? ==>
        && RequestFor(flags, loc).forecastDays == Some(days)
        && DailyShown(w, Resolve(flags).days) == Min(days, |w.daily.value|)
  {
  }

  /** A negative count: `--days -2` alone requests one day (the request
      clamps) but shows no day at all, since the display gets `-2`; the only
      panel is the header. */
  lemma NegativeDaysShowNothing(
    query: string, flags: Flags, cache: LocationCache, lower: string -> string,
    geocode: string -> seq<Candidate>, round2: real -> real, fetch: Params -> map<string, Value>
  )
    requires flags == Flags(false, Some(-2), false, None, false)
    requires RunWeather(query, flags, cache, lower, geocode, round2, fetch).Shown?
    ensures
      var loc := GetLocation(cache, query, lower, geocode, round2).result.value;
      && RequestFor(flags, loc).forecastDays == Some(1)
      && RunWeather(query, flags, cache, lower, geocode, round2, fetch).panels == [Header(loc.displayName)]
  {
  }

  /** The counts the display should be given: the clamped values the request
      carries, so that it shows what was asked for. */
  function DisplayCounts(res: Resolution): (c: (Option<int>, Option<int>))
    requires IncludesDaily(res.kind) ==> res.days.Some?
    requires IncludesHourly(res.kind) ==> res.hours.Some?
    ensures IncludesDaily(res.kind) ==> c.0.Some? && MinCount <= c.0.value <= MaxForecastDays
    ensures IncludesHourly(res.kind) ==> c.1.Some? && MinCount <= c.1.value <= MaxForecastHours
    ensures !IncludesDaily(res.kind) ==> c.0 == res.days
    ensures !IncludesHourly(res.kind) ==> c.1 == res.hours
  {
    (if IncludesDaily(res.kind) then Some(Clamp(res.days.value, MinCount, MaxForecastDays)) else res.days,
     if IncludesHourly(res.kind) then Some(Clamp(res.hours.value, MinCount, MaxForecastHours)) else res.hours)
  }

  /** The command with the display limited by the clamped counts. */
  function RunWeatherClamped(
    query: string,
    flags: Flags,
    cache: LocationCache,
    lower: string -> string,
    geocode: string -> seq<Candidate>,
    round2: real -> real,
    fetch: Params -> map<string, Value>
  ): (o: Outcome)
    ensures o.NotFound? <==> GetLocation(cache, query, lower, geocode, round2).result.Failure?
    ensures o.cache == GetLocation(cache, query, lower, geocode, round2).cache
    // once the place is found, the command shows panels exactly when the
    // answer parses, and otherwise ends with that parse error
    ensures
      var lookup := GetLocation(cache, query, lower, geocode, round2);
      lookup.result.Success? ==>
        var loc := lookup.result.value;
        var res := Resolve(flags);
        var parsed := Parse(fetch(RequestFor(flags, loc)), res.kind, loc.displayName);
        && (o.Shown? <==> parsed.Success?)
        && (o.ParseFailed? <==> parsed.Failure?)
        && (o.ParseFailed? ==> o.error == parsed.error)
        && (o.Shown? ==> o.panels == FormatWeather(parsed.value, DisplayCounts(res).0, DisplayCounts(res).1))
  {
    var res := Resolve(flags);
    var lookup := GetLocation(cache, query, lower, geocode, round2);
    match lookup.result
    case Failure(_) => NotFound(query, lookup.cache)
    case Success(loc) =>
      match Parse(fetch(RequestFor(flags, loc)), res.kind, loc.displayName)
      case Failure(e) => ParseFailed(e, lookup.cache)
      case Success(w) =>
        var counts := DisplayCounts(res);
        Shown(FormatWeather(w, counts.0, counts.1), lookup.cache)
  }

  /** With the clamped display, the days shown are exactly the days
      requested, or fewer if fewer came back, and the hourly panel appears
      whenever hours came back, whatever count the user typed. */
  lemma ClampedShowsWhatWasRequested(
    query: string, flags: Flags, cache: LocationCache, lower: string -> string,
    geocode: string -> seq<Candidate>, round2: real -> real, fetch: Params -> map<string, Value>
  )
    requires RunWeatherClamped(query, flags, cache, lower, geocode, round2, fetch).Shown?
    ensures
      var loc := GetLocation(cache, query, lower, geocode, round2).result.value;
      var w := Parse(fetch(RequestFor(flags, loc)), Resolve(flags).kind, loc.displayName).value;
      var counts := DisplayCounts(Resolve(flags));
      && (w.daily.Some? ==> DailyShown(w, counts.0) == Min(RequestFor(flags, loc).forecastDays.value, |w.daily.value|))
      && (w.hourly.Some? && |w.hourly.value| > 0 ==> HourlyShown(w, counts.1))
  {
  }

  /** Where the counts are in range, both versions print the same panels. */
  lemma ClampedAgreesInRange(
    query: string, flags: Flags, cache: LocationCache, lower: string -> string,
    geocode: string -> seq<Candidate>, round2: real -> real, fetch: Params -> map<string, Value>
  )
    requires IncludesDaily(Resolve(flags).kind) ==> MinCount <= Resolve(flags).days.value <= MaxForecastDays
    requires IncludesHourly(Resolve(flags).kind) ==> MinCount <= Resolve(flags).hours.value <= MaxForecastHours
    ensures RunWeatherClamped(query, flags, cache, lower, geocode, round2, fetch)
         == RunWeather(query, flags, cache, lower, geocode, round2, fetch)
  {
  }
}

=== FILE: formatter.dfy ===
/** What the terminal formatter decides, without the rendering: the weather
    code descriptions, the colour classifiers for temperatures and weather
    codes, and which panels `format_weather` emits in which order. A panel is
    an abstract tag carrying the records it shows. */
module Formatter {
  import opened Wrappers
  import opened Schema
  import opened Response

  // ---------------------------------------------------------------------------
  // Weather codes
  // ---------------------------------------------------------------------------

  /** WMO weather code to (emoji, description). */
  const WeatherCodes: map<int, (string, string)> := map[
    0 := ("☀️", "Ясно"),
    1 := ("🌤️", "Преимущественно ясно"),
    2 := ("⛅", "Переменная облачность"),
    3 := ("☁️", "Пасмурно"),
    45 := ("🌫️", "Туман"),
    48 := ("🌫️", "Иней"),
    51 := ("🌦️", "Слабая морось"),
    53 := ("🌦️", "Морось"),
    55 := ("🌦️", "Плотная морось"),
    61 := ("🌧️", "Слабый дождь"),
    63 := ("🌧️", "Дождь"),
    65 := ("🌧️", "Сильный дождь"),
    71 := ("🌨️", "Слабый снег"),
    73 := ("🌨️", "Снег"),
    75 := ("🌨️", "Сильный снег"),
    77 := ("❄️", "Снежные зерна"),
    80 := ("🌦️", "Ливень"),
    81 := ("🌧️", "Сильный ливень"),
    82 := ("⛈️", "Очень сильный ливень"),
    95 := ("⛈️", "Гроза"),
    96 := ("⛈️", "Гроза с градом"),
    99 := ("⛈️", "Сильная гроза с градом")
  ]

  /** The fallback description. */
  const Unknown := "Неизвестно"

  /** `get_weather_info(code)`: the table's description, or the fallback.
      No listed code is described as the fallback, so the fallback appears
      exactly for the codes the table lacks. */
  function WeatherInfo(code: int): (r: string)
    ensures code in WeatherCodes ==> r == WeatherCodes[code].1
    ensures r == Unknown <==> code !in WeatherCodes
  {
    if code in WeatherCodes then WeatherCodes[code].1 else Unknown
  }

  // ---------------------------------------------------------------------------
  // Temperature bands
  // ---------------------------------------------------------------------------

  /** The six temperature bands, warmest first. */
  datatype TempBand = BoldRed | Orange | Yellow | LightGreen | Cyan | BoldCyan

  /** Warmth rank: higher is warmer. */
  function Rank(b: TempBand): nat {
    match b
    case BoldRed => 5
    case Orange => 4
    case Yellow => 3
    case LightGreen => 2
    case Cyan => 1
    case BoldCyan => 0
  }

  /** Inclusive lower bound of a band; the coldest has none. */
  function Lower(b: TempBand): Option<real> {
    match b
    case BoldRed => Some(30.0)
    case Orange => Some(20.0)
    case Yellow => Some(10.0)
    case LightGreen => Some(0.0)
    case Cyan => Some(-10.0)
    case BoldCyan => None
  }

  /** Exclusive upper bound of a band; the warmest has none. */
  function Upper(b: TempBand): Option<real> {
    match b
    case BoldRed => None
    case Orange => Some(30.0)
    case Yellow => Some(20.0)
    case LightGreen => Some(10.0)
    case Cyan => Some(0.0)
    case BoldCyan => Some(-10.0)
  }

  /** `t` lies in band `b`. */
  predicate InBand(t: real, b: TempBand) {
    (Lower(b).None? || Lower(b).value <= t) && (Upper(b).None? || t < Upper(b).value)
  }

  /** The band `get_temp_style` picks for `t`. */
  function TempBandOf(t: real): (b: TempBand)
    ensures InBand(t, b)
  {
    if t >= 30.0 then BoldRed
    else if t >= 20.0 then Orange
    else if t >= 10.0 then Yellow
    else if t >= 0.0 then LightGreen
    else if t >= -10.0 then Cyan
    else BoldCyan
  }

  /** The Rich style name of a band. */
  function StyleName(b: TempBand): string {
    match b
    case BoldRed => "bold red"
    case Orange => "orange1"
    case Yellow => "yellow"
    case LightGreen => "light_green"
    case Cyan => "cyan"
    case BoldCyan => "bold cyan"
  }

  /** `get_temp_style(temp)`. */
  function TempStyle(t: real): (s: string)
    // one style per band, each holding exactly on its band
    ensures t >= 30.0 <==> s == "bold red"
    ensures 20.0 <= t < 30.0 <==> s == "orange1"
    ensures 10.0 <= t < 20.0 <==> s == "yellow"
    ensures 0.0 <= t < 10.0 <==> s == "light_green"
    ensures -10.0 <= t < 0.0 <==> s == "cyan"
    ensures t < -10.0 <==> s == "bold cyan"
  {
    StyleName(TempBandOf(t))
  }

  /** Every temperature lies in exactly one band. */
  lemma BandsPartition(t: real, b: TempBand)
    ensures InBand(t, b) <==> b == TempBandOf(t)
  {
  }

  /** A higher temperature never gets a colder band. */
  lemma BandMonotone(t1: real, t2: real)
    requires t1 <= t2
    ensures Rank(TempBandOf(t1)) <= Rank(TempBandOf(t2))
  {
  }

  // ---------------------------------------------------------------------------
  // Weather code styles
  // ---------------------------------------------------------------------------

  /** `get_weather_style(code)`. The rain style carries a trailing space. */
  function WeatherStyle(code: int): (s: string)
    ensures s == "yellow" <==> code == 0 || code == 1
    ensures s == "grey69" <==> code == 2 || code == 3
    ensures s == "grey50" <==> code == 45 || code == 48
    ensures s == "bright_blue " <==> 50 <= code <= 67
    ensures s == "cyan" <==> 70 <= code <= 77
    ensures s == "magenta" <==> code >= 95
    ensures s == "white" <==> !(0 <= code <= 3 || code == 45 || code == 48 || 50 <= code <= 67 || 70 <= code <= 77 || code >= 95)
  {
    if code == 0 || code == 1 then "yellow"
    else if code == 2 || code == 3 then "grey69"
    else if code == 45 || code == 48 then "grey50"
    else if 50 <= code <= 67 then "bright_blue "
    else if 70 <= code <= 77 then "cyan"
    else if code >= 95 then "magenta"
    else "white"
  }

  /** Rain showers (80-82) fall through to white, although they are rain
      codes in the description table. */
  lemma ShowersAreWhite(code: int)
    requires 80 <= code <= 82
    ensures code in WeatherCodes && WeatherStyle(code) == "white"
  {
  }

  // ---------------------------------------------------------------------------
  // Panels
  // ---------------------------------------------------------------------------

  /** An output panel of `format_weather`, tagged by what it shows. */
  datatype Panel =
    | Header(name: string)
    | CurrentPanel(record: Record)
    | DailyPanel(record: Record)
    | HourlyPanel(rows: seq<Record>)

  /** Python's `s[:n]` for any integer `n`: a non-negative `n` keeps the first
      `n` elements, a negative one drops the last `-n`. */
  function SlicePrefix<T>(s: seq<T>, n: int): (r: seq<T>)
    ensures |r| <= |s| && forall i :: 0 <= i < |r| ==> r[i] == s[i]
    ensures n >= 0 ==> |r| == Min(n, |s|)
    ensures n < 0 ==> |r| == Max(|s| + n, 0)
  {
    if n >= 0 then s[..Min(n, |s|)] else s[..Max(|s| + n, 0)]
  }

  /** `format_hourly(forecasts, limit)`: one panel with the first `limit` hours. */
  function FormatHourly(forecasts: seq<Record>, limit: int): (p: Panel)
    ensures p.HourlyPanel?
    ensures |p.rows| <= |forecasts| && forall i :: 0 <= i < |p.rows| ==> p.rows[i] == forecasts[i]
    ensures limit >= 0 ==> |p.rows| == Min(limit, |forecasts|)
  {
    HourlyPanel(SlicePrefix(forecasts, limit))
  }

  /** How many daily panels `format_weather` emits. */
  function DailyShown(w: Weather, showDaily: Option<int>): (n: nat)
    ensures n > 0 ==> w.daily.Some? && n <= |w.daily.value|
    ensures n > 0 ==> showDaily.Some? && n <= showDaily.value
    // a missing, zero or negative count shows no day
    ensures showDaily.None? || showDaily.value <= 0 ==> n == 0
    // a positive count shows that many days, or all there are
    ensures w.daily.Some? && showDaily.Some? && showDaily.value > 0 ==> n == Min(showDaily.value, |w.daily.value|)
  {
    if w.daily.Some? && showDaily.Some? && showDaily.value > 0
    then Min(showDaily.value, |w.daily.value|)
    else 0
  }

  /** Whether `format_weather` emits the hourly panel. */
  function HourlyShown(w: Weather, showHourly: Option<int>): (b: bool)
    // the hourly panel, when shown, holds between one and `show_hourly` rows
    ensures b ==> && w.hourly.Some? && showHourly.Some?
                  && 0 < |SlicePrefix(w.hourly.value, showHourly.value)| <= showHourly.value
    // a missing, zero or negative count shows no hourly panel
    ensures showHourly.None? || showHourly.value <= 0 ==> !b
    // hourly rows and a positive count always show the panel
    ensures w.hourly.Some? && |w.hourly.value| > 0 && showHourly.Some? && showHourly.value > 0 ==> b
  {
    w.hourly.Some? && |w.hourly.value| > 0 && showHourly.Some? && showHourly.value > 0
  }

  /** The daily panels of `format_weather`: one per shown day, in order. */
  function DailyPanels(w: Weather, showDaily: Option<int>): (ps: seq<Panel>)
    ensures |ps| == DailyShown(w, showDaily)
    ensures forall i :: 0 <= i < |ps| ==> ps[i] == DailyPanel(w.daily.value[i])
  {
    if w.daily.Some? && |w.daily.value| > 0 && showDaily.Some? && showDaily.value > 0 then
      var shown := SlicePrefix(w.daily.value, showDaily.value);
      seq(|shown|, i requires 0 <= i < |shown| => DailyPanel(shown[i]))
    else []
  }

  /** `format_weather(weather, show_daily, show_hourly)`. */
  function FormatWeather(w: Weather, showDaily: Option<int>, showHourly: Option<int>): (out: seq<Panel>)
    ensures
      var c := if w.current.Some? then 1 else 0;
      var nd := DailyShown(w, showDaily);
      var nh := if HourlyShown(w, showHourly) then 1 else 0;
      && |out| == 1 + c + nd + nh
      // the header comes first, the current panel right after it iff there is a current record
      && out[0] == Header(w.displayName)
      && (w.current.Some? ==> out[1] == CurrentPanel(w.current.value))
      // then the first `nd` days, in order, and the hourly panel last
      && out[1 + c .. 1 + c + nd] == DailyPanels(w, showDaily)
      && (nh == 1 ==> out[|out| - 1] == FormatHourly(w.hourly.value, showHourly.value))
  {
    var header := [Header(w.displayName)];
    var current := if w.current.Some? then [CurrentPanel(w.current.value)] else [];
    var days := DailyPanels(w, showDaily);
    var hourly :=
      if HourlyShown(w, showHourly) then [FormatHourly(w.hourly.value, showHourly.value)] else [];
    header + current + days + hourly
  }

  /** Which positions hold which kind of panel: the days sit right after the
      header and the current panel, and the hourly panel, if any, is last. */
  lemma {:induction false} PanelKinds(w: Weather, showDaily: Option<int>, showHourly: Option<int>)
    ensures
      var out := FormatWeather(w, showDaily, showHourly);
      var c := if w.current.Some? then 1 else 0;
      var nd := DailyShown(w, showDaily);
      var nh := if HourlyShown(w, showHourly) then 1 else 0;
      && (forall i :: 0 <= i < |out| ==> (out[i].DailyPanel? <==> 1 + c <= i < 1 + c + nd))
      && (forall i :: 0 <= i < |out| ==> (out[i].HourlyPanel? <==> nh == 1 && i == |out| - 1))
      && (forall i :: 0 <= i < |out| ==> (out[i].Header? <==> i == 0))
      && (w.current.Some? <==> 1 < |out| && out[1].CurrentPanel?)
  {
    var out := FormatWeather(w, showDaily, showHourly);
    var c := if w.current.Some? then 1 else 0;
    var days := DailyPanels(w, showDaily);
    Layout(out, c, days, if HourlyShown(w, showHourly) then 1 else 0);
  }

  /** The kinds of panel at each position of a panel list made of a header,
      `c` current panels, the daily panels `days` and `nh` hourly panels. */
  lemma {:induction false} Layout(out: seq<Panel>, c: nat, days: seq<Panel>, nh: nat)
    requires c <= 1 && nh <= 1
    requires |out| == 1 + c + |days| + nh
    requires out[0].Header? && (c == 1 ==> out[1].CurrentPanel?)
    requires out[1 + c .. 1 + c + |days|] == days
    requires forall i :: 0 <= i < |days| ==> days[i].DailyPanel?
    requires nh == 1 ==> out[|out| - 1].HourlyPanel?
    ensures forall i :: 0 <= i < |out| ==> (out[i].DailyPanel? <==> 1 + c <= i < 1 + c + |days|)
    ensures forall i :: 0 <= i < |out| ==> (out[i].HourlyPanel? <==> nh == 1 && i == |out| - 1)
    ensures forall i :: 0 <= i < |out| ==> (out[i].Header? <==> i == 0)
  {
    forall i | 1 + c <= i < 1 + c + |days|
      ensures out[i].DailyPanel?
    {
      assert out[i] == days[i - 1 - c];
    }
  }

  /** The order of panel kinds: header, current, days, hours. */
  function Stage(p: Panel): nat {
    match p
    case Header(_) => 0
    case CurrentPanel(_) => 1
    case DailyPanel(_) => 2
    case HourlyPanel(_) => 3
  }

  /** Panels come out grouped by kind in a fixed order, and only the first is
      a header. */
  lemma {:induction false} PanelsOrdered(w: Weather, showDaily: Option<int>, showHourly: Option<int>, i: int, j: int)
    requires 0 <= i <= j < |FormatWeather(w, showDaily, showHourly)|
    ensures Stage(FormatWeather(w, showDaily, showHourly)[i]) <= Stage(FormatWeather(w, showDaily, showHourly)[j])
    ensures FormatWeather(w, showDaily, showHourly)[j].Header? <==> j == 0
  {
    PanelKinds(w, showDaily, showHourly);
  }
}

=== FILE: geo.dfy ===
/** Location lookup (`get_location`): a cache hit is returned as is; a miss asks
    the geocoder, fails with `LocationNotFoundError` on an empty answer, and
    otherwise saves the first candidate under the name the user typed.

    The cache file, the geocoder's HTTP call, the cache's key folding
    (`name.lower()`) and `round(x, 2)` are parameters: the model fixes how
    they are combined, not what they compute. */
module Geo {
  import opened Wrappers

  /** A resolved place: display name and coordinates. */
  datatype Location = Location(displayName: string, latitude: real, longitude: real)

  /** One geocoder hit: `display_name`, `lat`, `lon`. */
  datatype Candidate = Candidate(displayName: string, lat: real, lon: real)

  datatype LocationError = LocationNotFound

  /** The location cache, keyed by folded user query. */
  type LocationCache = map<string, Location>

  /** What a lookup returned, the cache afterwards, and whether the geocoder
      was asked. */
  datatype Lookup = Lookup(result: Result<Location, LocationError>, cache: LocationCache, geocoded: bool)

  /** `save_location`: the entry stored under the folded name, with the
      coordinates rounded once more. */
  function CachedEntry(displayName: string, lat: real, lon: real, round2: real -> real): (e: Location)
    ensures e.displayName == displayName
    // the coordinates are rounded again before they are stored
    ensures e.latitude == round2(lat) && e.longitude == round2(lon)
    // a place whose coordinates are already rounded is stored as it is
    ensures round2(lat) == lat && round2(lon) == lon ==> e == Location(displayName, lat, lon)
  {
    Location(displayName, round2(lat), round2(lon))
  }

  /** `get_location(name)`. */
  function GetLocation(
    cache: LocationCache,
    name: string,
    lower: string -> string,
    geocode: string -> seq<Candidate>,
    round2: real -> real
  ): (r: Lookup)
    // a cache hit is returned untouched and the geocoder is not asked
    ensures lower(name) in cache ==> r == Lookup(Success(cache[lower(name)]), cache, false)
    // a miss always asks the geocoder, with the name as typed
    ensures lower(name) !in cache ==> r.geocoded
    // an empty answer fails before anything is written
    ensures lower(name) !in cache && |geocode(name)| == 0 ==>
      r.result == Failure(LocationNotFound) && r.cache == cache
    // otherwise the first candidate, rounded, is returned and saved under the query
    ensures lower(name) !in cache && |geocode(name)| > 0 ==>
      var c := geocode(name)[0];
      && r.result == Success(Location(c.displayName, round2(c.lat), round2(c.lon)))
      && r.cache == cache[lower(name) := CachedEntry(c.displayName, round2(c.lat), round2(c.lon), round2)]
  {
    var key := lower(name);
    if key in cache then
      Lookup(Success(cache[key]), cache, false)
    else
      var hits := geocode(name);
      if |hits| == 0 then
        Lookup(Failure(LocationNotFound), cache, true)
      else
        var loc := Location(hits[0].displayName, round2(hits[0].lat), round2(hits[0].lon));
        Lookup(Success(loc), cache[key := CachedEntry(loc.displayName, loc.latitude, loc.longitude, round2)], true)
  }

  /** Asking twice: after a successful lookup, a second lookup of the same
      name hits the cache and does not geocode; when rounding is idempotent on
      the coordinates it returns the same location as the first. */
  lemma SecondLookupHitsCache(
    cache: LocationCache,
    name: string,
    lower: string -> string,
    geocode: string -> seq<Candidate>,
    round2: real -> real
  )
    requires GetLocation(cache, name, lower, geocode, round2).result.Success?
    ensures
      var first := GetLocation(cache, name, lower, geocode, round2);
      var second := GetLocation(first.cache, name, lower, geocode, round2);
      && !second.geocoded
      && second.cache == first.cache
      && second.result.Success?
      && (var l := first.result.value;
          round2(l.latitude) == l.latitude && round2(l.longitude) == l.longitude ==>
            second.result == first.result)
  {
  }

  /** A lookup changes at most the entry under the folded query. */
  lemma LookupTouchesOnlyItsKey(
    cache: LocationCache,
    name: string,
    lower: string -> string,
    geocode: string -> seq<Candidate>,
    round2: real -> real,
    other: string
  )
    requires other != lower(name)
    ensures
      var after := GetLocation(cache, name, lower, geocode, round2).cache;
      (other in after <==> other in cache) && (other in cache ==> after[other] == cache[other])
  {
  }

  /** The legacy client's `get_location`: no cache and no rounding; an empty
      answer raises (a plain `Exception` there, the same error tag here). */
  function LegacyGetLocation(name: string, geocode: string -> seq<Candidate>): (r: Result<Location, LocationError>)
    ensures r.Failure? <==> |geocode(name)| == 0
    ensures r.Success? ==>
      var c := geocode(name)[0];
      r.value == Location(c.displayName, c.lat, c.lon)
  {
    var hits := geocode(name);
    if |hits| == 0 then Failure(LocationNotFound)
    else Success(Location(hits[0].displayName, hits[0].lat, hits[0].lon))
  }

  /** On a cache miss the live lookup answers what the legacy one does, up to
      the rounding of the coordinates. */
  lemma LiveLookupExtendsLegacy(
    cache: LocationCache,
    name: string,
    lower: string -> string,
    geocode: string -> seq<Candidate>,
    round2: real -> real
  )
    requires lower(name) !in cache
    ensures
      var live := GetLocation(cache, name, lower, geocode, round2).result;
      var legacy := LegacyGetLocation(name, geocode);
      && (live.Failure? <==> legacy.Failure?)
      && (live.Success? ==>
            && live.value.displayName == legacy.value.displayName
            && live.value.latitude == round2(legacy.value.latitude)
            && live.value.longitude == round2(legacy.value.longitude))
  {
  }
}

=== FILE: json.dfy ===
/** The provider's JSON, as Python sees it after `response.json()`. */
module Json {
  import opened Wrappers

  datatype Value =
    | VNull
    | VBool(b: bool)
    | VInt(i: int)
    | VReal(r: real)
    | VStr(s: string)
    | VList(items: seq<Value>)
    | VObj(fields: map<string, Value>)

  /** One row of a normalized time series, or one flat record such as the
      `current` block: provider field name to value. */
  type Row = map<string, Value>

  /** Python truthiness of a JSON value (`if not data`). */
  predicate Truthy(v: Value) {
    match v
    case VNull => false
    case VBool(b) => b
    case VInt(i) => i != 0
    case VReal(r) => r != 0.0
    case VStr(s) => |s| > 0
    case VList(xs) => |xs| > 0
    case VObj(m) => |m| > 0
  }

  /** Python's `len(v)`: defined for strings, lists and dicts; any other value
      raises `TypeError`, shown here as `None`. */
  function Len(v: Value): (n: Option<nat>)
    ensures n.Some? <==> (v.VStr? || v.VList? || v.VObj?)
    ensures v.VList? ==> n == Some(|v.items|)
  {
    match v
    case VStr(s) => Some(|s|)
    case VList(xs) => Some(|xs|)
    case VObj(m) => Some(|m|)
    case _ => None
  }

  /** Python's `t in s` for two strings: `t` occurs in `s` as a substring. */
  predicate HasSubstring(s: string, t: string)
    decreases |s|
  {
    |s| >= |t| && (s[..|t|] == t || HasSubstring(s[1..], t))
  }
}

=== FILE: mode.dfy ===
/** The forecast-mode decision of the `weather` command: from the flags `-d`,
    `--days`, `-h`, `--hours` and `--mixed` it derives the forecast kind and
    the day/hour counts handed to the request and to the display. The command
    tests the flags by Python truthiness, so an explicit `0` counts as not
    given. */
module Mode {
  import opened Wrappers
  import opened Schema

  /** The five CLI signals. */
  datatype Flags = Flags(d: bool, days: Option<int>, h: bool, hours: Option<int>, mixed: bool)

  /** The kind and the (possibly defaulted) counts. */
  datatype Resolution = Resolution(kind: ForecastKind, days: Option<int>, hours: Option<int>)

  const DefaultDays := 4
  const DefaultHours := 12

  /** Truthiness of an optional count: given and non-zero. */
  predicate Given(o: Option<int>) {
    o.Some? && o.value != 0
  }

  /** `-d` or a truthy `--days`. */
  predicate WantsDaily(f: Flags) {
    f.d || Given(f.days)
  }

  /** `-h` or a truthy `--hours`. */
  predicate WantsHourly(f: Flags) {
    f.h || Given(f.hours)
  }

  /** `if not x: x = default`: a falsy count is replaced, so with a truthy
      default the count that comes out is always truthy. */
  function OrDefault(o: Option<int>, default: int): (r: Option<int>)
    ensures default != 0 ==> Given(r)
    ensures Given(o) ==> r == o
    ensures r != o ==> r == Some(default)
  {
    if Given(o) then o else Some(default)
  }

  /** Defaulting twice is defaulting once: the resolved counts are stable. */
  lemma OrDefaultIdempotent(o: Option<int>, default: int)
    requires default != 0
    ensures OrDefault(OrDefault(o, default), default) == OrDefault(o, default)
  {
  }

  /** The if/elif chain of the `weather` command. */
  function Resolve(f: Flags): (r: Resolution)
    // the kind, as a decision table in which exactly one row applies
    ensures r.kind == Current <==> !f.mixed && !WantsDaily(f) && !WantsHourly(f)
    ensures r.kind == Mixed <==> f.mixed || (WantsDaily(f) && WantsHourly(f))
    ensures r.kind == Daily <==> !f.mixed && WantsDaily(f) && !WantsHourly(f)
    ensures r.kind == Hourly <==> !f.mixed && !WantsDaily(f) && WantsHourly(f)
    // a block the kind needs always gets a non-zero count: the given one or the default
    ensures IncludesDaily(r.kind) ==> Given(r.days) && r.days.value == (if Given(f.days) then f.days.value else DefaultDays)
    ensures IncludesHourly(r.kind) ==> Given(r.hours) && r.hours.value == (if Given(f.hours) then f.hours.value else DefaultHours)
    // a count the kind does not need is left as given, and is falsy
    ensures !IncludesDaily(r.kind) ==> r.days == f.days && !Given(r.days)
    ensures !IncludesHourly(r.kind) ==> r.hours == f.hours && !Given(r.hours)
  {
    if !(f.mixed || f.d || Given(f.days) || f.h || Given(f.hours)) then
      Resolution(Current, f.days, f.hours)
    else if f.mixed || (WantsDaily(f) && WantsHourly(f)) then
      Resolution(Mixed, OrDefault(f.days, DefaultDays), OrDefault(f.hours, DefaultHours))
    else if WantsDaily(f) then
      Resolution(Daily, OrDefault(f.days, DefaultDays), f.hours)
    else
      Resolution(Hourly, f.days, OrDefault(f.hours, DefaultHours))
  }

  /** The literal cases of the decision table. */
  lemma ResolveExamples()
    ensures Resolve(Flags(false, None, false, None, false)) == Resolution(Current, None, None)
    ensures Resolve(Flags(true, None, false, None, false)) == Resolution(Daily, Some(4), None)
    ensures Resolve(Flags(false, None, false, Some(6), false)) == Resolution(Hourly, None, Some(6))
    ensures Resolve(Flags(true, None, false, Some(6), false)) == Resolution(Mixed, Some(4), Some(6))
    ensures Resolve(Flags(false, None, false, None, true)) == Resolution(Mixed, Some(4), Some(12))
  {
  }

  /** An explicit 0 is no signal: `--days 0` alone gives the current forecast,
      and `-d --days 0` gives 4 days. */
  lemma ZeroIsNotGiven()
    ensures Resolve(Flags(false, Some(0), false, None, false)).kind == Current
    ensures Resolve(Flags(true, Some(0), false, None, false)) == Resolution(Daily, Some(4), None)
    ensures Resolve(Flags(false, Some(0), false, Some(0), false)).kind == Current
  {
  }

  /** Replacing a count of 0 by no count changes nothing the command uses. */
  lemma ZeroLikeAbsent(f: Flags)
    ensures Resolve(f.(days := if f.days == Some(0) then None else f.days)).kind == Resolve(f).kind
    ensures IncludesDaily(Resolve(f).kind) ==>
      Resolve(f.(days := if f.days == Some(0) then None else f.days)).days == Resolve(f).days
  {
  }
}

=== FILE: request.dfy ===
/** The request composer of `get_weather`: the query parameters sent to the
    forecast endpoint for a location, a forecast kind and day/hour counts.

    Three generations of the client compose the same parameters and differ
    only in constants: the live client and the superseded snapshot derive the
    field lists from the schema and default to 4 days / 12 hours; the legacy
    client hard-codes its field lists and defaults to 1 day / 24 hours. */
module Request {
  import opened Wrappers
  import opened Schema
  import opened Geo

  const MinCount := 1
  const MaxForecastDays := 16
  const MaxForecastHours := 168

  /** `min(max(x, lo), hi)`. */
  function Clamp(x: int, lo: int, hi: int): (r: int)
    requires lo <= hi
    ensures lo <= r <= hi
    ensures lo <= x <= hi ==> r == x
    ensures x < lo ==> r == lo
    ensures x > hi ==> r == hi
  {
    Min(Max(x, lo), hi)
  }

  /** Clamping is monotone and idempotent. */
  lemma ClampMonotone(x: int, y: int, lo: int, hi: int)
    requires lo <= hi && x <= y
    ensures Clamp(x, lo, hi) <= Clamp(y, lo, hi)
    ensures Clamp(Clamp(x, lo, hi), lo, hi) == Clamp(x, lo, hi)
  {
  }

  datatype TemperatureUnit = Celsius | Fahrenheit
  datatype WindSpeedUnit = Kmh | Ms | Mph | Knots

  /** The pass-through transport settings of `get_weather`. */
  datatype Settings = Settings(
    timezone: string,
    temperatureUnit: Option<TemperatureUnit>,
    windSpeedUnit: Option<WindSpeedUnit>)

  /** The keyword defaults: `timezone="auto"`, no units. */
  const DefaultSettings := Settings("auto", None, None)

  /** The three field lists a client sends. */
  datatype FieldLists = FieldLists(current: seq<string>, daily: seq<string>, hourly: seq<string>)

  /** The lists the live client and the superseded snapshot both send:
      `get_request_fields()` of each record variant, which
      `SchemaListsFromFields` proves these to be. */
  const SchemaLists := FieldLists(
    ["weather_code"] +
    ["temperature_2m", "apparent_temperature", "wind_speed_10m",
     "wind_direction_10m", "relative_humidity_2m", "is_day"],
    ["weather_code"] +
    ["temperature_2m_max", "temperature_2m_min", "apparent_temperature_max",
     "apparent_temperature_min", "wind_speed_10m_max", "precipitation_probability_max",
     "precipitation_sum", "sunrise", "sunset"],
    ["weather_code"] +
    ["temperature_2m", "apparent_temperature", "wind_speed_10m",
     "relative_humidity_2m", "precipitation_probability", "cloud_cover"])

  /** Each list is the request list of its record variant. */
  lemma SchemaListsFromFields()
    ensures SchemaLists.current == VariantRequestFields(CurrentRecord)
    ensures SchemaLists.daily == VariantRequestFields(DailyRecord)
    ensures SchemaLists.hourly == VariantRequestFields(HourlyRecord)
  {
    CurrentRequestFields();
    DailyRequestFields();
    HourlyRequestFields();
  }

  /** The legacy client's hard-coded lists. */
  const LegacyLists := FieldLists(
    ["weather_code", "temperature_2m", "apparent_temperature", "wind_speed_10m",
     "wind_direction_10m", "relative_humidity_2m", "is_day"],
    ["weather_code", "temperature_2m_max", "temperature_2m_min", "apparent_temperature_max",
     "apparent_temperature_min", "wind_speed_10m_max", "sunrise", "sunset",
     "precipitation_probability_max", "precipitation_sum"],
    ["weather_code", "temperature_2m", "apparent_temperature", "wind_speed_10m",
     "relative_humidity_2m", "precipitation_probability"])

  /** Default `days` and `hours` of a client's `get_weather`. */
  datatype Counts = Counts(days: int, hours: int)

  const LiveDefaults := Counts(4, 12)
  const SnapshotDefaults := Counts(4, 12)
  const LegacyDefaults := Counts(1, 24)

  /** The query parameters. The five always-present keys are plain fields; a
      block and its count are `None` when the dict does not hold the key. */
  datatype Params = Params(
    latitude: real,
    longitude: real,
    timezone: string,
    temperatureUnit: Option<TemperatureUnit>,
    windSpeedUnit: Option<WindSpeedUnit>,
    current: Option<seq<string>>,
    daily: Option<seq<string>>,
    forecastDays: Option<int>,
    hourly: Option<seq<string>>,
    forecastHours: Option<int>)
  {
    /** The keys of the parameter dict. */
    function Keys(): set<string> {
      {"latitude", "longitude", "timezone", "temperature_unit", "wind_speed_unit"}
      + (if current.Some? then {"current"} else {})
      + (if daily.Some? then {"daily"} else {})
      + (if forecastDays.Some? then {"forecast_days"} else {})
      + (if hourly.Some? then {"hourly"} else {})
      + (if forecastHours.Some? then {"forecast_hours"} else {})
    }
  }

  /** The parameter dict `get_weather` builds. `days`/`hours` are what the
      caller passed; a kind that needs a count must be given one, since
      `max(None, 1)` raises. */
  function Compose(
    lists: FieldLists,
    loc: Location,
    kind: ForecastKind,
    days: Option<int>,
    hours: Option<int>,
    settings: Settings
  ): (p: Params)
    requires IncludesDaily(kind) ==> days.Some?
    requires IncludesHourly(kind) ==> hours.Some?
    ensures p.latitude == loc.latitude && p.longitude == loc.longitude
    ensures p.timezone == settings.timezone
    ensures p.temperatureUnit == settings.temperatureUnit && p.windSpeedUnit == settings.windSpeedUnit
    ensures p.current.Some? <==> IncludesCurrent(kind)
    ensures p.daily.Some? <==> IncludesDaily(kind)
    ensures p.forecastDays.Some? <==> IncludesDaily(kind)
    ensures p.hourly.Some? <==> IncludesHourly(kind)
    ensures p.forecastHours.Some? <==> IncludesHourly(kind)
    ensures p.current.Some? ==> p.current.value == lists.current
    ensures p.daily.Some? ==> p.daily.value == lists.daily
    ensures p.hourly.Some? ==> p.hourly.value == lists.hourly
    // the counts sent are the caller's, clamped into the provider's range
    ensures p.forecastDays.Some? ==> p.forecastDays.value == Clamp(days.value, MinCount, MaxForecastDays)
    ensures p.forecastHours.Some? ==> p.forecastHours.value == Clamp(hours.value, MinCount, MaxForecastHours)
    ensures p.forecastDays.Some? ==>
      && MinCount <= p.forecastDays.value <= MaxForecastDays
      && (MinCount <= days.value <= MaxForecastDays ==> p.forecastDays.value == days.value)
    ensures p.forecastHours.Some? ==>
      && MinCount <= p.forecastHours.value <= MaxForecastHours
      && (MinCount <= hours.value <= MaxForecastHours ==> p.forecastHours.value == hours.value)
  {
    Params(
      loc.latitude,
      loc.longitude,
      settings.timezone,
      settings.temperatureUnit,
      settings.windSpeedUnit,
      if IncludesCurrent(kind) then Some(lists.current) else None,
      if IncludesDaily(kind) then Some(lists.daily) else None,
      if IncludesDaily(kind) then Some(Clamp(days.value, MinCount, MaxForecastDays)) else None,
      if IncludesHourly(kind) then Some(lists.hourly) else None,
      if IncludesHourly(kind) then Some(Clamp(hours.value, MinCount, MaxForecastHours)) else None)
  }

  /** `get_weather` called without `days`/`hours`: the client's defaults are used. */
  function ComposeWithDefaults(
    lists: FieldLists,
    defaults: Counts,
    loc: Location,
    kind: ForecastKind,
    settings: Settings
  ): (p: Params)
    ensures p.forecastDays.Some? <==> IncludesDaily(kind)
    ensures p.forecastHours.Some? <==> IncludesHourly(kind)
    // defaults within the provider's range are sent unchanged
    ensures IncludesDaily(kind) && MinCount <= defaults.days <= MaxForecastDays ==> p.forecastDays == Some(defaults.days)
    ensures IncludesHourly(kind) && MinCount <= defaults.hours <= MaxForecastHours ==> p.forecastHours == Some(defaults.hours)
  {
    Compose(lists, loc, kind, Some(defaults.days), Some(defaults.hours), settings)
  }

  /** For every kind, the parameter dict holds the five fixed keys and exactly
      the blocks the kind implies: `Current` never sends `daily` or `hourly`. */
  lemma ParamKeysByKind(lists: FieldLists, loc: Location, kind: ForecastKind, days: int, hours: int, settings: Settings)
    ensures
      var keys := Compose(lists, loc, kind, Some(days), Some(hours), settings).Keys();
      && {"latitude", "longitude", "timezone", "temperature_unit", "wind_speed_unit"} <= keys
      && (kind == Current ==> keys == {"latitude", "longitude", "timezone", "temperature_unit", "wind_speed_unit", "current"})
      && (kind == Daily ==> keys == {"latitude", "longitude", "timezone", "temperature_unit", "wind_speed_unit", "daily", "forecast_days"})
      && (kind == Hourly ==> keys == {"latitude", "longitude", "timezone", "temperature_unit", "wind_speed_unit", "hourly", "forecast_hours"})
      && (kind == Mixed ==> keys == {"latitude", "longitude", "timezone", "temperature_unit", "wind_speed_unit",
                                     "current", "daily", "forecast_days", "hourly", "forecast_hours"})
  {
  }

  /** The live and snapshot defaults: a daily request asks for 4 days, an
      hourly one for 12 hours; the legacy defaults ask for 1 day and 24 hours. */
  lemma DefaultCounts(loc: Location, settings: Settings)
    ensures ComposeWithDefaults(SchemaLists, LiveDefaults, loc, Mixed, settings).forecastDays == Some(4)
    ensures ComposeWithDefaults(SchemaLists, LiveDefaults, loc, Mixed, settings).forecastHours == Some(12)
    ensures ComposeWithDefaults(SchemaLists, SnapshotDefaults, loc, Mixed, settings) ==
            ComposeWithDefaults(SchemaLists, LiveDefaults, loc, Mixed, settings)
    ensures ComposeWithDefaults(LegacyLists, LegacyDefaults, loc, Mixed, settings).forecastDays == Some(1)
    ensures ComposeWithDefaults(LegacyLists, LegacyDefaults, loc, Mixed, settings).forecastHours == Some(24)
  {
  }

  /** The legacy `current` list is the schema's. */
  lemma LegacyCurrentMatchesSchema()
    ensures LegacyLists.current == SchemaLists.current
  {
  }

  /** The legacy `daily` list requests the same fields as the schema but puts
      sunrise/sunset before the precipitation fields. */
  lemma LegacyDailyReordered()
    ensures |LegacyLists.daily| == |SchemaLists.daily| == 10
    ensures LegacyLists.daily == SchemaLists.daily[..6] + SchemaLists.daily[8..] + SchemaLists.daily[6..8]
    ensures LegacyLists.daily[6] == "sunrise" && SchemaLists.daily[6] == "precipitation_probability_max"
  {
  }

  /** The legacy `hourly` list is the schema's without `cloud_cover`. */
  lemma LegacyHourlyLacksCloudCover()
    ensures |LegacyLists.hourly| == 6
    ensures LegacyLists.hourly + ["cloud_cover"] == SchemaLists.hourly
    ensures "cloud_cover" !in LegacyLists.hourly
  {
  }
}

=== FILE: response.dfy ===
/** The response parser `_parse_weather_response` of the live client (the
    superseded snapshot is the same function), and the legacy client's
    `_normalize_response`, which returns plain rows instead of validated
    records. */
module Response {
  import opened Wrappers
  import opened Json
  import opened Schema
  import opened Timeseries

  /** The parsed forecast: a display name and only the branches that were
      both requested and returned. */
  datatype Weather = Weather(
    displayName: string,
    current: Option<Record>,
    daily: Option<seq<Record>>,
    hourly: Option<seq<Record>>)

  /** Why a parse raised: a record failed validation, or the normalizer raised
      on a block. */
  datatype ParseError =
    | InvalidRecord(block: string, index: nat, error: ValidationError)
    | MalformedBlock(block: string, reason: NormalizeError)

  /** The list comprehension `[validate(item) for item in rows]`: one result
      per row in order, or the first row that fails. */
  function ValidateAll<T, R, E>(validate: T -> Result<R, E>, rows: seq<T>): (r: Result<seq<R>, (nat, E)>)
    ensures r.Success? <==> forall i :: 0 <= i < |rows| ==> validate(rows[i]).Success?
    ensures r.Success? ==> |r.value| == |rows|
    ensures r.Success? ==> forall i :: 0 <= i < |rows| ==> validate(rows[i]) == Success(r.value[i])
    ensures r.Failure? ==>
      && r.error.0 < |rows|
      && validate(rows[r.error.0]) == Failure(r.error.1)
      && forall j :: 0 <= j < r.error.0 ==> validate(rows[j]).Success?
  {
    if |rows| == 0 then Success([])
    else
      match validate(rows[0])
      case Failure(e) => Failure((0, e))
      case Success(first) =>
        match ValidateAll(validate, rows[1..])
        case Failure(err) => Failure((err.0 + 1, err.1))
        case Success(rest) => Success([first] + rest)
  }

  /** `Variant.model_validate` applied to one normalized row. */
  function RowValidator(variant: Variant): Row -> Result<Record, ValidationError> {
    row => Validate(variant, VObj(row))
  }

  /** The `current` block, if present, validated as one flat record. */
  function ParseCurrent(raw: map<string, Value>): (r: Result<Option<Record>, ParseError>)
    ensures r.Success? <==> CurrentOk(raw)
    ensures r.Failure? ==> "current" in raw && r.error == CurrentError(raw)
  {
    if "current" !in raw then Success(None)
    else
      match Validate(CurrentRecord, raw["current"])
      case Failure(e) => Failure(InvalidRecord("current", 0, e))
      case Success(rec) => Success(Some(rec))
  }

  /** A `daily`/`hourly` block, if present, normalized into rows and each row
      validated. */
  function ParseSeries(raw: map<string, Value>, key: string, variant: Variant): (r: Result<Option<seq<Record>>, ParseError>)
    ensures r.Success? <==> SeriesOk(raw, key, variant)
    ensures r.Failure? ==> SeriesError(raw, key, variant, r.error)
  {
    if key !in raw then Success(None)
    else
      match NormalizeBlock(raw[key])
      case Failure(e) => Failure(MalformedBlock(key, e))
      case Success(rows) =>
        match ValidateAll(RowValidator(variant), rows)
        case Failure(err) => Failure(InvalidRecord(key, err.0, err.1))
        case Success(recs) => Success(Some(recs))
  }

  /** The `current` block is absent or validates. */
  predicate CurrentOk(raw: map<string, Value>) {
    "current" !in raw || Validate(CurrentRecord, raw["current"]).Success?
  }

  /** The block under `key` is absent, or it normalizes and every row validates. */
  predicate SeriesOk(raw: map<string, Value>, key: string, variant: Variant) {
    key !in raw ||
      (NormalizeBlock(raw[key]).Success? &&
       forall i :: 0 <= i < |NormalizeBlock(raw[key]).value| ==>
         Validate(variant, VObj(NormalizeBlock(raw[key]).value[i])).Success?)
  }

  /** The error raised on a malformed `current` block: its validation error. */
  function CurrentError(raw: map<string, Value>): ParseError
    requires "current" in raw && !CurrentOk(raw)
  {
    InvalidRecord("current", 0, Validate(CurrentRecord, raw["current"]).error)
  }

  /** `e` is what a malformed block under `key` raises: the normalizer's own
      error, or else the first row that fails validation, with its error. */
  predicate SeriesError(raw: map<string, Value>, key: string, variant: Variant, e: ParseError) {
    && key in raw
    && e.block == key
    && (e.MalformedBlock? <==> NormalizeBlock(raw[key]).Failure?)
    && (e.MalformedBlock? ==> NormalizeBlock(raw[key]) == Failure(e.reason))
    && (e.InvalidRecord? ==>
          var rows := NormalizeBlock(raw[key]).value;
          && e.index < |rows|
          && Validate(variant, VObj(rows[e.index])) == Failure(e.error)
          && forall j :: 0 <= j < e.index ==> Validate(variant, VObj(rows[j])).Success?)
  }

  /** The records of a parsed series are the validated normalized rows, one
      per row, in row order. */
  predicate SeriesFrom(raw: map<string, Value>, key: string, variant: Variant, recs: seq<Record>) {
    && key in raw
    && NormalizeBlock(raw[key]).Success?
    && |recs| == |NormalizeBlock(raw[key]).value|
    && forall i :: 0 <= i < |recs| ==>
         Validate(variant, VObj(NormalizeBlock(raw[key]).value[i])) == Success(recs[i])
  }

  /** `_parse_weather_response(raw_data, forecast_type, display_name)`. */
  function Parse(raw: map<string, Value>, kind: ForecastKind, displayName: string): (r: Result<Weather, ParseError>)
    // the parse succeeds exactly when every requested block that came back is well formed
    ensures r.Success? <==>
      && (IncludesCurrent(kind) ==> CurrentOk(raw))
      && (IncludesDaily(kind) ==> SeriesOk(raw, "daily", DailyRecord))
      && (IncludesHourly(kind) ==> SeriesOk(raw, "hourly", HourlyRecord))
    ensures r.Success? ==> r.value.displayName == displayName
    // a branch is set iff the kind implies it and the payload holds it
    ensures r.Success? ==> (r.value.current.Some? <==> IncludesCurrent(kind) && "current" in raw)
    ensures r.Success? ==> (r.value.daily.Some? <==> IncludesDaily(kind) && "daily" in raw)
    ensures r.Success? ==> (r.value.hourly.Some? <==> IncludesHourly(kind) && "hourly" in raw)
    // and holds what validation made of the payload
    ensures r.Success? && r.value.current.Some? ==> Validate(CurrentRecord, raw["current"]) == Success(r.value.current.value)
    ensures r.Success? && r.value.daily.Some? ==> SeriesFrom(raw, "daily", DailyRecord, r.value.daily.value)
    ensures r.Success? && r.value.hourly.Some? ==> SeriesFrom(raw, "hourly", HourlyRecord, r.value.hourly.value)
    // a failure names a block the kind implies and the payload holds
    ensures r.Failure? ==>
      var b := r.error.block;
      b in raw &&
      ((b == "current" && IncludesCurrent(kind)) ||
       (b == "daily" && IncludesDaily(kind)) ||
       (b == "hourly" && IncludesHourly(kind)))
    // the blocks are checked current, daily, hourly: a failure reports the
    // first malformed one, and every block checked before it was well formed
    ensures r.Failure? && r.error.block == "current" ==>
      && "current" in raw && !CurrentOk(raw)
      && r.error == CurrentError(raw)
    ensures r.Failure? && r.error.block == "daily" ==>
      && (IncludesCurrent(kind) ==> CurrentOk(raw))
      && SeriesError(raw, "daily", DailyRecord, r.error)
    ensures r.Failure? && r.error.block == "hourly" ==>
      && (IncludesCurrent(kind) ==> CurrentOk(raw))
      && (IncludesDaily(kind) ==> SeriesOk(raw, "daily", DailyRecord))
      && SeriesError(raw, "hourly", HourlyRecord, r.error)
  {
    var current :- if IncludesCurrent(kind) then ParseCurrent(raw) else Success(None);
    var daily :- if IncludesDaily(kind) then ParseSeries(raw, "daily", DailyRecord) else Success(None);
    var hourly :- if IncludesHourly(kind) then ParseSeries(raw, "hourly", HourlyRecord) else Success(None);
    Success(Weather(displayName, current, daily, hourly))
  }

  /** A payload carrying `current` parsed for a `Daily` request leaves
      `current` unset. */
  lemma KindGatesBlocks(raw: map<string, Value>, displayName: string)
    requires "current" in raw
    requires Parse(raw, Daily, displayName).Success?
    ensures Parse(raw, Daily, displayName).value.current.None?
    ensures Parse(raw, Daily, displayName).value.hourly.None?
  {
  }

  /** One invalid row fails the whole parse, however many rows are valid. */
  lemma OneBadRowFailsParse(raw: map<string, Value>, kind: ForecastKind, displayName: string, i: nat)
    requires IncludesDaily(kind) && "daily" in raw
    requires NormalizeBlock(raw["daily"]).Success? && i < |NormalizeBlock(raw["daily"]).value|
    requires Validate(DailyRecord, VObj(NormalizeBlock(raw["daily"]).value[i])).Failure?
    ensures Parse(raw, kind, displayName).Failure?
  {
  }

  /** A well-formed `current` block is never blamed: when it validates and the
      `daily` block is malformed, the parse raises on `daily`. */
  lemma MalformedDailyIsReported(raw: map<string, Value>, kind: ForecastKind, displayName: string)
    requires IncludesDaily(kind) && CurrentOk(raw)
    requires !SeriesOk(raw, "daily", DailyRecord)
    ensures Parse(raw, kind, displayName).Failure?
    ensures Parse(raw, kind, displayName).error.block == "daily"
    ensures SeriesError(raw, "daily", DailyRecord, Parse(raw, kind, displayName).error)
  {
  }

  // ---------------------------------------------------------------------------
  // Legacy client
  // ---------------------------------------------------------------------------

  /** The legacy result: the raw `current` block and plain rows. */
  datatype LegacyWeather = LegacyWeather(
    location: string,
    current: Option<Value>,
    daily: Option<seq<Row>>,
    hourly: Option<seq<Row>>)

  function LegacySeries(raw: map<string, Value>, key: string): Result<Option<seq<Row>>, NormalizeError> {
    if key !in raw then Success(None)
    else
      match NormalizeBlock(raw[key])
      case Failure(e) => Failure(e)
      case Success(rows) => Success(Some(rows))
  }

  /** The legacy `_normalize_response(raw_data, forecast_type, location)`. */
  function LegacyNormalizeResponse(raw: map<string, Value>, kind: ForecastKind, location: string): (r: Result<LegacyWeather, NormalizeError>)
    ensures r.Success? ==> r.value.location == location
    ensures r.Success? ==> (r.value.current.Some? <==> IncludesCurrent(kind) && "current" in raw)
    ensures r.Success? ==> (r.value.daily.Some? <==> IncludesDaily(kind) && "daily" in raw)
    ensures r.Success? ==> (r.value.hourly.Some? <==> IncludesHourly(kind) && "hourly" in raw)
    // current is copied verbatim, the series are normalized
    ensures r.Success? && r.value.current.Some? ==> r.value.current.value == raw["current"]
    ensures r.Success? && r.value.daily.Some? ==> NormalizeBlock(raw["daily"]) == Success(r.value.daily.value)
    ensures r.Success? && r.value.hourly.Some? ==> NormalizeBlock(raw["hourly"]) == Success(r.value.hourly.value)
    // it fails only where the normalizer does
    ensures r.Failure? <==>
      (IncludesDaily(kind) && "daily" in raw && NormalizeBlock(raw["daily"]).Failure?) ||
      (IncludesHourly(kind) && "hourly" in raw && NormalizeBlock(raw["hourly"]).Failure?)
  {
    var current := if IncludesCurrent(kind) && "current" in raw then Some(raw["current"]) else None;
    var daily :- if IncludesDaily(kind) then LegacySeries(raw, "daily") else Success(None);
    var hourly :- if IncludesHourly(kind) then LegacySeries(raw, "hourly") else Success(None);
    Success(LegacyWeather(location, current, daily, hourly))
  }

  /** The live parser is the legacy normalization followed by validation:
      whenever the live parse succeeds the legacy one does too, with the same
      branches, and each live record is the validated legacy row at the same
      index. */
  lemma LiveParseValidatesLegacyRows(raw: map<string, Value>, kind: ForecastKind, name: string)
    requires Parse(raw, kind, name).Success?
    ensures LegacyNormalizeResponse(raw, kind, name).Success?
    ensures
      var w := Parse(raw, kind, name).value;
      var l := LegacyNormalizeResponse(raw, kind, name).value;
      && (w.current.Some? <==> l.current.Some?)
      && (w.current.Some? ==> Validate(CurrentRecord, l.current.value) == Success(w.current.value))
      && (w.daily.Some? <==> l.daily.Some?)
      && (w.daily.Some? ==>
            && |w.daily.value| == |l.daily.value|
            && forall i :: 0 <= i < |w.daily.value| ==> Validate(DailyRecord, VObj(l.daily.value[i])) == Success(w.daily.value[i]))
      && (w.hourly.Some? <==> l.hourly.Some?)
      && (w.hourly.Some? ==>
            && |w.hourly.value| == |l.hourly.value|
            && forall i :: 0 <= i < |w.hourly.value| ==> Validate(HourlyRecord, VObj(l.hourly.value[i])) == Success(w.hourly.value[i]))
  {
  }
}

=== FILE: schema.dfy ===
/** The forecast field schema of `wthr/models/forecast.py`: the four forecast
    kinds, the three record variants with their provider aliases, the request
    field lists derived from them, and record validation against them. */
module Schema {
  import opened Wrappers
  import opened Json

  // ---------------------------------------------------------------------------
  // Forecast kinds
  // ---------------------------------------------------------------------------

  datatype ForecastKind = Current | Daily | Hourly | Mixed

  /** Whether a request of this kind carries the `current` block. */
  predicate IncludesCurrent(k: ForecastKind) {
    k == Current || k == Mixed
  }

  /** Whether a request of this kind carries the `daily` block. */
  predicate IncludesDaily(k: ForecastKind) {
    k == Daily || k == Mixed
  }

  /** Whether a request of this kind carries the `hourly` block. */
  predicate IncludesHourly(k: ForecastKind) {
    k == Hourly || k == Mixed
  }

  /** The string value of the `ForecastType` enum member. */
  function WireName(k: ForecastKind): (r: string)
    ensures r in {"current", "daily", "hourly", "mixed"}
  {
    match k
    case Current => "current"
    case Daily => "daily"
    case Hourly => "hourly"
    case Mixed => "mixed"
  }

  /** `ForecastType(s)`: the member whose value is `s`, if any. */
  function FromWireName(s: string): (r: Option<ForecastKind>)
    ensures r.Some? <==> s in {"current", "daily", "hourly", "mixed"}
    ensures r.Some? ==> WireName(r.value) == s
  {
    if s == "current" then Some(Current)
    else if s == "daily" then Some(Daily)
    else if s == "hourly" then Some(Hourly)
    else if s == "mixed" then Some(Mixed)
    else None
  }

  /** The enum has exactly four members, with four distinct values, and every
      member is recovered from its value. */
  lemma {:induction false} ForecastKindMembers(k: ForecastKind)
    ensures k in {Current, Daily, Hourly, Mixed}
    ensures FromWireName(WireName(k)) == Some(k)
    ensures |{WireName(Current), WireName(Daily), WireName(Hourly), WireName(Mixed)}| == 4
  {
    assert "current" != "daily" && "current" != "hourly" && "current" != "mixed";
    assert "daily" != "hourly" && "daily" != "mixed" && "hourly" != "mixed";
  }

  /** Every kind implies at least one block; only `Mixed` implies all three. */
  lemma KindBlocks(k: ForecastKind)
    ensures IncludesCurrent(k) || IncludesDaily(k) || IncludesHourly(k)
    ensures (IncludesCurrent(k) && IncludesDaily(k) && IncludesHourly(k)) <==> k == Mixed
  {
  }

  // ---------------------------------------------------------------------------
  // Field tables
  // ---------------------------------------------------------------------------

  /** The type annotation of a field, reduced to what validation checks. */
  datatype FieldType =
    | DateTime   // datetime
    | Int        // int
    | Float      // float
    | DayFlag    // Literal[0, 1]

  /** A declared field: internal name, provider alias (if any), type, and
      whether it is required (declared without a default). */
  datatype Field = Field(name: string, alias: Option<string>, ty: FieldType, required: bool)

  /** The three record variants built on the shared base. */
  datatype Variant = CurrentRecord | DailyRecord | HourlyRecord

  /** The base fields shared by every variant: `time` has no alias. */
  const BaseFields: seq<Field> := [
    Field("time", None, DateTime, true),
    Field("weather_code", Some("weather_code"), Int, true)
  ]

  const CurrentOwnFields: seq<Field> := [
    Field("temperature", Some("temperature_2m"), Float, true),
    Field("apparent_temperature", Some("apparent_temperature"), Float, false),
    Field("wind_speed", Some("wind_speed_10m"), Float, true),
    Field("wind_direction", Some("wind_direction_10m"), Int, false),
    Field("relative_humidity", Some("relative_humidity_2m"), Int, true),
    Field("is_day", Some("is_day"), DayFlag, true)
  ]

  const DailyOwnFields: seq<Field> := [
    Field("temperature_max", Some("temperature_2m_max"), Float, true),
    Field("temperature_min", Some("temperature_2m_min"), Float, true),
    Field("apparent_temperature_max", Some("apparent_temperature_max"), Float, false),
    Field("apparent_temperature_min", Some("apparent_temperature_min"), Float, false),
    Field("wind_speed_max", Some("wind_speed_10m_max"), Float, false),
    Field("precipitation_probability_max", Some("precipitation_probability_max"), Int, true),
    Field("precipitation_sum", Some("precipitation_sum"), Float, false),
    Field("sunrise", Some("sunrise"), DateTime, true),
    Field("sunset", Some("sunset"), DateTime, true)
  ]

  const HourlyOwnFields: seq<Field> := [
    Field("temperature", Some("temperature_2m"), Float, true),
    Field("apparent_temperature", Some("apparent_temperature"), Float, false),
    Field("wind_speed", Some("wind_speed_10m"), Float, false),
    Field("relative_humidity", Some("relative_humidity_2m"), Int, false),
    Field("precipitation_probability", Some("precipitation_probability"), Int, false),
    Field("cloud_cover", Some("cloud_cover"), Int, false)
  ]

  /** The declared fields of a variant in declaration order: base fields first,
      as the model class inherits them. */
  function Fields(v: Variant): seq<Field> {
    BaseFields + OwnFields(v)
  }

  /** The fields a variant declares itself. */
  function OwnFields(v: Variant): seq<Field> {
    match v
    case CurrentRecord => CurrentOwnFields
    case DailyRecord => DailyOwnFields
    case HourlyRecord => HourlyOwnFields
  }

  /** The key a field is read from when validating a raw object: its alias, or
      its own name when it has none. */
  function InputKey(f: Field): string {
    f.alias.ValueOr(f.name)
  }

  /** Some field of `fields` declares `a` as its alias, and `a` is truthy:
      an empty alias is falsy in Python and never requested. */
  predicate Declares(fields: seq<Field>, a: string) {
    a != "" && exists f :: f in fields && f.alias == Some(a)
  }

  // ---------------------------------------------------------------------------
  // Request field lists
  // ---------------------------------------------------------------------------

  /** `get_request_fields`: the aliases of `fields`, in order, skipping fields
      whose alias is missing or empty. */
  function RequestFields(fields: seq<Field>): (r: seq<string>)
    ensures |r| <= |fields|
    ensures forall i :: 0 <= i < |r| ==> r[i] != ""
  {
    if |fields| == 0 then []
    else
      match fields[0].alias
      case Some(a) => if a != "" then [a] + RequestFields(fields[1..]) else RequestFields(fields[1..])
      case None => RequestFields(fields[1..])
  }

  /** An empty alias is falsy: the field is skipped like one without alias. */
  lemma EmptyAliasSkipped(name: string, ty: FieldType, required: bool)
    ensures RequestFields([Field(name, Some(""), ty, required)]) == []
    ensures RequestFields([Field(name, Some(""), ty, required), Field("x", Some("x"), ty, required)]) == ["x"]
  {
  }

  /** A name is in the request list exactly when some field declares it as
      its alias. */
  lemma {:induction false} RequestFieldsMembers(fields: seq<Field>, a: string)
    ensures a in RequestFields(fields) <==> Declares(fields, a)
    decreases |fields|
  {
    if |fields| > 0 {
      RequestFieldsMembers(fields[1..], a);
      if Declares(fields, a) {
        var f :| f in fields && f.alias == Some(a);
        if f != fields[0] {
          assert f in fields[1..];
        }
      }
      if Declares(fields[1..], a) {
        var f :| f in fields[1..] && f.alias == Some(a);
        assert f in fields;
      }
    }
  }

  /** The request list of a concatenation is the concatenation of the request
      lists: the base fields' aliases come first, then the variant's own. */
  lemma {:induction false} RequestFieldsAppend(a: seq<Field>, b: seq<Field>)
    ensures RequestFields(a + b) == RequestFields(a) + RequestFields(b)
    decreases |a|
  {
    if |a| == 0 {
      assert a + b == b;
    } else {
      assert (a + b)[1..] == a[1..] + b;
      RequestFieldsAppend(a[1..], b);
    }
  }

  /** A field without an alias never reaches the request list. */
  lemma {:induction false} UnaliasedNeverRequested(fields: seq<Field>, f: Field)
    requires f in fields && f.alias.None?
    requires forall g :: g in fields && g.alias.Some? ==> g.alias.value != f.name
    ensures f.name !in RequestFields(fields)
  {
    RequestFieldsMembers(fields, f.name);
  }

  /** The request list of a variant. */
  function VariantRequestFields(v: Variant): seq<string> {
    RequestFields(Fields(v))
  }

  /** Every field carries a truthy alias. */
  predicate AllAliased(fields: seq<Field>) {
    forall i :: 0 <= i < |fields| ==> fields[i].alias.Some? && fields[i].alias.value != ""
  }

  /** When every field has a truthy alias, the request list is the aliases,
      one per field, in declaration order. */
  lemma {:induction false} AllAliasedRequested(fields: seq<Field>)
    requires AllAliased(fields)
    ensures |RequestFields(fields)| == |fields|
    ensures forall i :: 0 <= i < |fields| ==> RequestFields(fields)[i] == fields[i].alias.value
    decreases |fields|
  {
    if |fields| > 0 {
      var tail := fields[1..];
      assert AllAliased(tail) by {
        forall i | 0 <= i < |tail|
          ensures tail[i].alias.Some? && tail[i].alias.value != ""
        {
          assert tail[i] == fields[i + 1];
        }
      }
      AllAliasedRequested(tail);
      assert RequestFields(fields) == [fields[0].alias.value] + RequestFields(tail);
    }
  }

  /** Fields aliased one by one by the truthy names `names` request exactly
      `names`. */
  lemma RequestedExactly(fields: seq<Field>, names: seq<string>)
    requires |fields| == |names|
    requires forall i :: 0 <= i < |fields| ==> fields[i].alias == Some(names[i]) && names[i] != ""
    ensures RequestFields(fields) == names
  {
    AllAliasedRequested(fields);
  }

  lemma BaseRequestFields()
    ensures RequestFields(BaseFields) == ["weather_code"]
  {
    assert BaseFields[1..][1..] == [];
  }

  /** A variant's list is `weather_code` followed by its own fields' list. */
  lemma VariantRequested(v: Variant)
    ensures VariantRequestFields(v) == ["weather_code"] + RequestFields(OwnFields(v))
  {
    RequestFieldsAppend(BaseFields, OwnFields(v));
    BaseRequestFields();
  }

  /** The aliases current records add to the base. */
  lemma CurrentOwnRequested()
    ensures RequestFields(CurrentOwnFields) ==
      ["temperature_2m", "apparent_temperature", "wind_speed_10m", "wind_direction_10m",
       "relative_humidity_2m", "is_day"]
  {
    RequestedExactly(CurrentOwnFields,
      ["temperature_2m", "apparent_temperature", "wind_speed_10m", "wind_direction_10m",
       "relative_humidity_2m", "is_day"]);
  }

  /** The `current` list, exactly: `weather_code`, then the current aliases. */
  lemma CurrentRequestFields()
    ensures VariantRequestFields(CurrentRecord) ==
      ["weather_code"] +
      ["temperature_2m", "apparent_temperature", "wind_speed_10m", "wind_direction_10m",
       "relative_humidity_2m", "is_day"]
  {
    VariantRequested(CurrentRecord);
    CurrentOwnRequested();
  }

  /** The aliases daily records add to the base. */
  lemma DailyOwnRequested()
    ensures RequestFields(DailyOwnFields) ==
      ["temperature_2m_max", "temperature_2m_min", "apparent_temperature_max",
       "apparent_temperature_min", "wind_speed_10m_max", "precipitation_probability_max",
       "precipitation_sum", "sunrise", "sunset"]
  {
    RequestedExactly(DailyOwnFields,
      ["temperature_2m_max", "temperature_2m_min", "apparent_temperature_max",
       "apparent_temperature_min", "wind_speed_10m_max", "precipitation_probability_max",
       "precipitation_sum", "sunrise", "sunset"]);
  }

  /** The `daily` list, exactly: `weather_code`, then the daily aliases. */
  lemma DailyRequestFields()
    ensures VariantRequestFields(DailyRecord) ==
      ["weather_code"] +
      ["temperature_2m_max", "temperature_2m_min", "apparent_temperature_max",
       "apparent_temperature_min", "wind_speed_10m_max", "precipitation_probability_max",
       "precipitation_sum", "sunrise", "sunset"]
  {
    VariantRequested(DailyRecord);
    DailyOwnRequested();
  }

  /** The aliases hourly records add to the base. */
  lemma HourlyOwnRequested()
    ensures RequestFields(HourlyOwnFields) ==
      ["temperature_2m", "apparent_temperature", "wind_speed_10m", "relative_humidity_2m",
       "precipitation_probability", "cloud_cover"]
  {
    RequestedExactly(HourlyOwnFields,
      ["temperature_2m", "apparent_temperature", "wind_speed_10m", "relative_humidity_2m",
       "precipitation_probability", "cloud_cover"]);
  }

  /** The `hourly` list, exactly: seven entries ending with `cloud_cover`. */
  lemma HourlyRequestFields()
    ensures VariantRequestFields(HourlyRecord) ==
      ["weather_code"] +
      ["temperature_2m", "apparent_temperature", "wind_speed_10m", "relative_humidity_2m",
       "precipitation_probability", "cloud_cover"]
    ensures |VariantRequestFields(HourlyRecord)| == 7
    ensures VariantRequestFields(HourlyRecord)[6] == "cloud_cover"
  {
    VariantRequested(HourlyRecord);
    HourlyOwnRequested();
  }

  /** No field of `fields` is sent under the name `time`. */
  lemma {:induction false} TimeNotDeclared(fields: seq<Field>)
    requires forall i :: 0 <= i < |fields| ==> fields[i].alias != Some("time")
    ensures "time" !in RequestFields(fields)
  {
    RequestFieldsMembers(fields, "time");
  }

  /** No field a variant declares itself is aliased `time`. */
  lemma OwnFieldsNotTime(v: Variant)
    ensures forall i :: 0 <= i < |OwnFields(v)| ==> OwnFields(v)[i].alias != Some("time")
  {
    match v
    case CurrentRecord =>
    case DailyRecord =>
    case HourlyRecord =>
  }

  /** `time` is never requested, and `weather_code` heads every list. */
  lemma TimeNeverRequested(v: Variant)
    ensures "time" !in VariantRequestFields(v)
    ensures |VariantRequestFields(v)| > 0 && VariantRequestFields(v)[0] == "weather_code"
  {
    RequestFieldsAppend(BaseFields, OwnFields(v));
    BaseRequestFields();
    OwnFieldsNotTime(v);
    TimeNotDeclared(OwnFields(v));
  }

  // ---------------------------------------------------------------------------
  // Record validation (`model_validate`)
  // ---------------------------------------------------------------------------

  /** A value is acceptable for a field type. Only the JSON shape is checked:
      datetime strings are not parsed. */
  predicate Conforms(v: Value, t: FieldType) {
    match t
    case DateTime => v.VStr? || v.VInt? || v.VReal?
    case Int => v.VInt?
    case Float => v.VInt? || v.VReal?
    case DayFlag => v == VInt(0) || v == VInt(1)
  }

  /** Field `f` validates against `row`: a present value conforms (an optional
      field also takes `null`); an absent key is allowed only for an optional
      field, which then takes its default `None`. */
  predicate FieldOk(row: Row, f: Field) {
    var key := InputKey(f);
    if key in row then Conforms(row[key], f.ty) || (!f.required && row[key] == VNull)
    else !f.required
  }

  /** A field carries a value into the record: its key is present and not null. */
  predicate Carried(row: Row, f: Field) {
    InputKey(f) in row && row[InputKey(f)] != VNull
  }

  /** The names of the fields of `fields` that fail validation, in order. */
  function Problems(row: Row, fields: seq<Field>): (r: seq<string>)
    ensures |r| == 0 <==> forall f :: f in fields ==> FieldOk(row, f)
    ensures forall n :: n in r ==> exists f :: f in fields && f.name == n && !FieldOk(row, f)
  {
    if |fields| == 0 then []
    else
      var rest := Problems(row, fields[1..]);
      assert forall f :: f in fields ==> f == fields[0] || f in fields[1..];
      if FieldOk(row, fields[0]) then rest else [fields[0].name] + rest
  }

  /** The internal names the fields of `fields` carry from `row`, with their values. */
  function Extract(row: Row, fields: seq<Field>): map<string, Value>
  {
    if |fields| == 0 then map[]
    else
      var rest := Extract(row, fields[1..]);
      var f := fields[0];
      if Carried(row, f) then rest[f.name := row[InputKey(f)]] else rest
  }

  /** No two fields share an internal name. */
  predicate UniqueNames(fields: seq<Field>) {
    forall i, j :: 0 <= i < j < |fields| ==> fields[i].name != fields[j].name
  }

  /** With unique names, every carried field appears under its internal name
      with the value read from its input key, and no other field does. */
  lemma {:induction false} ExtractContents(row: Row, fields: seq<Field>, f: Field)
    requires UniqueNames(fields)
    requires f in fields
    ensures f.name in Extract(row, fields) <==> Carried(row, f)
    ensures Carried(row, f) ==> Extract(row, fields)[f.name] == row[InputKey(f)]
    decreases |fields|
  {
    var tail := fields[1..];
    var rest := Extract(row, tail);
    TailUnique(fields);
    if f == fields[0] {
      ExtractAbsent(row, tail, f.name);
    } else {
      assert f in tail;
      ExtractContents(row, tail, f);
    }
  }

  /** A name no field carries is not extracted. */
  lemma {:induction false} ExtractAbsent(row: Row, fields: seq<Field>, n: string)
    requires forall g :: g in fields ==> g.name != n
    ensures n !in Extract(row, fields)
    decreases |fields|
  {
    if |fields| > 0 {
      assert forall g :: g in fields[1..] ==> g in fields;
      ExtractAbsent(row, fields[1..], n);
    }
  }

  /** Dropping the head keeps names unique, and the head's name is not reused. */
  lemma TailUnique(fields: seq<Field>)
    requires UniqueNames(fields) && |fields| > 0
    ensures UniqueNames(fields[1..])
    ensures forall g :: g in fields[1..] ==> g.name != fields[0].name
  {
    var tail := fields[1..];
    assert forall i :: 0 <= i < |tail| ==> tail[i] == fields[i + 1];
  }

  /** Concatenating two lists with unique, disjoint names keeps names unique. */
  lemma {:induction false} UniqueAppend(a: seq<Field>, b: seq<Field>)
    requires UniqueNames(a) && UniqueNames(b)
    requires forall f, g :: f in a && g in b ==> f.name != g.name
    ensures UniqueNames(a + b)
  {
    forall i, j | 0 <= i < j < |a + b|
      ensures (a + b)[i].name != (a + b)[j].name
    {
      if j < |a| {
        assert (a + b)[i] == a[i] && (a + b)[j] == a[j];
      } else if i >= |a| {
        assert (a + b)[i] == b[i - |a|] && (a + b)[j] == b[j - |a|];
      } else {
        assert (a + b)[i] == a[i] && (a + b)[j] == b[j - |a|];
        assert a[i] in a && b[j - |a|] in b;
      }
    }
  }

  /** No variant declares an internal name twice. */
  lemma VariantNamesUnique(v: Variant)
    ensures UniqueNames(Fields(v))
  {
    match v
    case CurrentRecord =>
      CurrentNamesUnique();
      UniqueAppend(BaseFields, CurrentOwnFields);
    case DailyRecord =>
      DailyNamesUnique();
      UniqueAppend(BaseFields, DailyOwnFields);
    case HourlyRecord =>
      HourlyNamesUnique();
      UniqueAppend(BaseFields, HourlyOwnFields);
  }

  // The names of a table differ in length, except for the pairs whose first
  // differing character is given; the base names are 4 and 12 characters long.

  /** The `current` fields have distinct names, none from the base. */
  lemma CurrentNamesUnique()
    ensures UniqueNames(CurrentOwnFields)
    ensures forall f :: f in CurrentOwnFields ==> f.name != "time" && f.name != "weather_code"
  {
    var fs := CurrentOwnFields;
    assert |fs[0].name| == 11 && |fs[1].name| == 20 && |fs[2].name| == 10;
    assert |fs[3].name| == 14 && |fs[4].name| == 17 && |fs[5].name| == 6;
  }

  /** The `daily` fields have distinct names, none from the base. */
  lemma DailyNamesUnique()
    ensures UniqueNames(DailyOwnFields)
    ensures forall f :: f in DailyOwnFields ==> f.name != "time" && f.name != "weather_code"
  {
    var fs := DailyOwnFields;
    assert |fs[0].name| == 15 && |fs[1].name| == 15 && |fs[2].name| == 24 && |fs[3].name| == 24 && |fs[4].name| == 14;
    assert |fs[5].name| == 29 && |fs[6].name| == 17 && |fs[7].name| == 7 && |fs[8].name| == 6;
    assert fs[0].name[13] != fs[1].name[13];
    assert fs[2].name[22] != fs[3].name[22];
  }

  /** The `hourly` fields have distinct names, none from the base. */
  lemma HourlyNamesUnique()
    ensures UniqueNames(HourlyOwnFields)
    ensures forall f :: f in HourlyOwnFields ==> f.name != "time" && f.name != "weather_code"
  {
    var fs := HourlyOwnFields;
    assert |fs[0].name| == 11 && |fs[1].name| == 20 && |fs[2].name| == 10;
    assert |fs[3].name| == 17 && |fs[4].name| == 25 && |fs[5].name| == 11;
    assert fs[0].name[0] != fs[5].name[0];
  }

  /** A validated forecast record: its variant and the values it carries,
      keyed by internal field name. */
  datatype Record = Record(variant: Variant, values: map<string, Value>)

  /** Why `model_validate` raised `ValidationError`. */
  datatype ValidationError =
    | NotAnObject                   // input is not a dict
    | InvalidFields(names: seq<string>)  // per-field failures, in declaration order

  /** `<Variant>.model_validate(v)`. */
  function Validate(variant: Variant, v: Value): (r: Result<Record, ValidationError>)
    ensures r.Success? <==> v.VObj? && forall f :: f in Fields(variant) ==> FieldOk(v.fields, f)
    ensures r.Success? ==> r.value.variant == variant
    ensures r.Failure? && v.VObj? ==> r.error.InvalidFields? && |r.error.names| > 0
    // every name reported belongs to a declared field that fails
    ensures r.Failure? && v.VObj? ==>
      forall n :: n in r.error.names ==> exists f :: f in Fields(variant) && f.name == n && !FieldOk(v.fields, f)
  {
    match v
    case VObj(row) =>
      var bad := Problems(row, Fields(variant));
      if |bad| == 0 then Success(Record(variant, Extract(row, Fields(variant))))
      else Failure(InvalidFields(bad))
    case _ => Failure(NotAnObject)
  }

  /** The input keys of the required fields of `fields`, in order. */
  function RequiredKeysOf(fields: seq<Field>): (r: seq<string>)
    ensures |r| <= |fields|
    // every key listed is read by a field without a default
    ensures forall k :: k in r ==> exists f :: f in fields && f.required && InputKey(f) == k
  {
    if |fields| == 0 then []
    else
      var rest := RequiredKeysOf(fields[1..]);
      assert forall f :: f in fields[1..] ==> f in fields;
      if fields[0].required then [InputKey(fields[0])] + rest else rest
  }

  /** A key is required exactly when some required field reads it. */
  lemma {:induction false} RequiredKeysMembers(fields: seq<Field>, k: string)
    ensures k in RequiredKeysOf(fields) <==> exists f :: f in fields && f.required && InputKey(f) == k
    decreases |fields|
  {
    if |fields| > 0 {
      RequiredKeysMembers(fields[1..], k);
      assert forall f :: f in fields ==> f == fields[0] || f in fields[1..];
      if exists f :: f in fields[1..] && f.required && InputKey(f) == k {
        var f :| f in fields[1..] && f.required && InputKey(f) == k;
        assert f in fields;
      }
    }
  }

  lemma {:induction false} RequiredKeysAppend(a: seq<Field>, b: seq<Field>)
    ensures RequiredKeysOf(a + b) == RequiredKeysOf(a) + RequiredKeysOf(b)
    decreases |a|
  {
    if |a| == 0 {
      assert a + b == b;
    } else {
      assert (a + b)[1..] == a[1..] + b;
      RequiredKeysAppend(a[1..], b);
    }
  }

  /** Keys a raw object must hold for validation to succeed, in declaration order. */
  function RequiredKeys(v: Variant): seq<string> {
    RequiredKeysOf(Fields(v))
  }

  lemma BaseRequiredKeys()
    ensures RequiredKeysOf(BaseFields) == ["time", "weather_code"]
  {
    assert BaseFields[1..][1..] == [];
  }

  /** A successful validation means every required key was present. */
  lemma RequiredKeysPresent(variant: Variant, row: Row)
    requires Validate(variant, VObj(row)).Success?
    ensures forall k :: k in RequiredKeys(variant) ==> k in row
  {
    var fs := Fields(variant);
    forall k | k in RequiredKeysOf(fs)
      ensures k in row
    {
      RequiredKeysMembers(fs, k);
      var g :| g in fs && g.required && InputKey(g) == k;
      assert FieldOk(row, g);
    }
  }

  /** A validated record carries exactly the declared fields whose key held a
      non-null value, under their internal names: an optional field that was
      missing stays absent. */
  lemma ValidatedRecord(variant: Variant, row: Row, f: Field)
    requires Validate(variant, VObj(row)).Success?
    requires f in Fields(variant)
    ensures f.name in Validate(variant, VObj(row)).value.values <==> Carried(row, f)
    ensures Carried(row, f) ==> Validate(variant, VObj(row)).value.values[f.name] == row[InputKey(f)]
  {
    VariantNamesUnique(variant);
    ExtractContents(row, Fields(variant), f);
  }

  /** The keys validation requires of a `current` object. */
  lemma CurrentRequiredKeys()
    ensures RequiredKeys(CurrentRecord) ==
      ["time", "weather_code", "temperature_2m", "wind_speed_10m", "relative_humidity_2m", "is_day"]
  {
    RequiredKeysAppend(BaseFields, CurrentOwnFields);
    BaseRequiredKeys();
    var s := CurrentOwnFields;
    assert s[1..][1..][1..][1..][1..][1..] == [];
  }

  /** The keys validation requires of a `daily` row. */
  lemma DailyRequiredKeys()
    ensures RequiredKeys(DailyRecord) ==
      ["time", "weather_code", "temperature_2m_max", "temperature_2m_min",
       "precipitation_probability_max", "sunrise", "sunset"]
  {
    RequiredKeysAppend(BaseFields, DailyOwnFields);
    BaseRequiredKeys();
    var s := DailyOwnFields;
    assert s[1..][1..][1..][1..][1..][1..][1..][1..][1..] == [];
  }

  /** An `hourly` row needs only `time`, `weather_code` and `temperature_2m`. */
  lemma HourlyRequiredKeys()
    ensures RequiredKeys(HourlyRecord) == ["time", "weather_code", "temperature_2m"]
  {
    RequiredKeysAppend(BaseFields, HourlyOwnFields);
    BaseRequiredKeys();
    var s := HourlyOwnFields;
    assert s[1..][1..][1..][1..][1..][1..] == [];
  }

  /** A `current` record's `is_day` is 0 or 1, and leaving out the optional
      `apparent_temperature` and `wind_direction_10m` still validates them to absent. */
  lemma CurrentValidation(row: Row)
    requires Validate(CurrentRecord, VObj(row)).Success?
    ensures "is_day" in row && (row["is_day"] == VInt(0) || row["is_day"] == VInt(1))
    ensures "apparent_temperature" !in row ==>
      "apparent_temperature" !in Validate(CurrentRecord, VObj(row)).value.values
    ensures "wind_direction_10m" !in row ==>
      "wind_direction" !in Validate(CurrentRecord, VObj(row)).value.values
  {
    var fs := Fields(CurrentRecord);
    assert fs[7] in fs && FieldOk(row, fs[7]);
    ValidatedRecord(CurrentRecord, row, fs[3]);
    ValidatedRecord(CurrentRecord, row, fs[5]);
  }

  /** The request list and the validation keys agree: a provider object that
      answers every requested alias, plus `time`, with a conforming value
      validates. */
  lemma {:induction false} AnsweredRequestValidates(variant: Variant, row: Row)
    requires "time" in row && Conforms(row["time"], DateTime)
    requires forall f :: f in Fields(variant) && f.alias.Some? ==>
      f.alias.value in row && Conforms(row[f.alias.value], f.ty)
    ensures Validate(variant, VObj(row)).Success?
  {
    forall f | f in Fields(variant)
      ensures FieldOk(row, f)
    {
      if f.alias.None? {
        UnaliasedIsTime(variant, f);
      }
    }
  }

  /** Every field a variant declares itself has an alias. */
  lemma OwnFieldsAliased(v: Variant)
    ensures forall f :: f in OwnFields(v) ==> f.alias.Some?
  {
    var own := OwnFields(v);
    assert forall i :: 0 <= i < |own| ==> own[i].alias.Some?;
  }

  /** `time` is the only field without an alias. */
  lemma UnaliasedIsTime(v: Variant, f: Field)
    requires f in Fields(v) && f.alias.None?
    ensures f == BaseFields[0]
  {
    OwnFieldsAliased(v);
    assert f in BaseFields || f in OwnFields(v);
  }
}

=== FILE: timeseries.dfy ===
/** The time-series normalizer `_normalize_timeseries`: it turns the
    provider's column-oriented block `{"time": [t0, t1, ...], field: [v0, v1, ...]}`
    into one row per time step. The live client, the superseded snapshot and
    the legacy client all carry the same function; it is modelled once here. */
module Timeseries {
  import opened Wrappers
  import opened Json

  /** Why the normalizer raised instead of returning rows. */
  datatype NormalizeError =
    | TimeHasNoLength       // len(data["time"]) on a number, bool or null
    | NotSubscriptable      // data["time"] on a list or string that contains "time"
    | NotIterable           // `"time" in data` on a number or True

  /** Column `k` contributes to row `i`: it is a list with an element at `i`. */
  predicate Contributes(block: map<string, Value>, k: string, i: nat) {
    k in block && block[k].VList? && i < |block[k].items|
  }

  /** Row `i` of the block: every column that is a list longer than `i`,
      at index `i`. Columns that are not lists are skipped. */
  function RowAt(block: map<string, Value>, i: nat): (row: Row)
    ensures forall k :: k in row <==> Contributes(block, k, i)
    ensures forall k :: Contributes(block, k, i) ==> row[k] == block[k].items[i]
  {
    map k | k in block && block[k].VList? && i < |block[k].items| :: block[k].items[i]
  }

  /** The first `n` rows of the block. */
  function Rows(block: map<string, Value>, n: nat): (rows: seq<Row>)
    ensures |rows| == n
    ensures forall i :: 0 <= i < n ==> rows[i] == RowAt(block, i)
  {
    seq(n, i requires 0 <= i => RowAt(block, i))
  }

  /** `_normalize_timeseries` on a dict: `[]` when it is empty or has no
      `"time"`, otherwise `len(data["time"])` rows. */
  function NormalizeColumns(block: map<string, Value>): (r: Result<seq<Row>, NormalizeError>)
    ensures "time" !in block ==> r == Success([])
    ensures r.Failure? <==> "time" in block && Len(block["time"]).None?
    ensures r.Success? && "time" in block ==> |r.value| == Len(block["time"]).value
    ensures r.Success? ==> forall i, k :: 0 <= i < |r.value| ==>
      (k in r.value[i] <==> Contributes(block, k, i))
    ensures r.Success? ==> forall i, k :: 0 <= i < |r.value| && Contributes(block, k, i) ==>
      k in r.value[i] && r.value[i][k] == block[k].items[i]
    ensures "time" in block && block["time"].VList? ==>
      r.Success? && forall i :: 0 <= i < |r.value| ==> "time" in r.value[i]
  {
    if |block| == 0 || "time" !in block then Success([])
    else
      match Len(block["time"])
      case None => Failure(TimeHasNoLength)
      case Some(n) => Success(Rows(block, n))
  }

  /** `_normalize_timeseries(data)` for whatever JSON value the response holds
      under the block's key, with Python's semantics for `not data`,
      `"time" not in data` and `data["time"]` on values that are not dicts. */
  function NormalizeBlock(data: Value): (r: Result<seq<Row>, NormalizeError>)
    ensures data.VObj? ==> r == NormalizeColumns(data.fields)
    ensures !Truthy(data) ==> r == Success([])
    ensures !data.VObj? && r.Success? ==> r.value == []
    ensures (data.VInt? || data.VReal? || data.VBool?) && Truthy(data) ==> r == Failure(NotIterable)
  {
    if !Truthy(data) then Success([])
    else
      match data
      case VObj(m) => NormalizeColumns(m)
      case VList(xs) => if VStr("time") in xs then Failure(NotSubscriptable) else Success([])
      case VStr(s) => if HasSubstring(s, "time") then Failure(NotSubscriptable) else Success([])
      case _ => Failure(NotIterable)
  }

  // ---------------------------------------------------------------------------
  // Reading a column back out of the rows
  // ---------------------------------------------------------------------------

  /** The values the rows hold under `k`, in row order, skipping rows without `k`. */
  function Column(rows: seq<Row>, k: string): seq<Value>
    decreases |rows|
  {
    if |rows| == 0 then []
    else
      var last := rows[|rows| - 1];
      Column(rows[..|rows| - 1], k) + (if k in last then [last[k]] else [])
  }

  /** Column round trip: reading list column `k` back from the first `n` rows
      gives the list cut at `n`. The rows that hold `k` are exactly the first
      `min(n, |list|)`, so a short array is kept as a prefix and never shifted. */
  lemma {:induction false} ColumnOfRows(block: map<string, Value>, k: string, n: nat)
    requires k in block && block[k].VList?
    ensures Column(Rows(block, n), k) == block[k].items[..Min(n, |block[k].items|)]
  {
    var items := block[k].items;
    if n > 0 {
      var rows := Rows(block, n);
      assert rows[..n - 1] == Rows(block, n - 1);
      ColumnOfRows(block, k, n - 1);
      if n - 1 < |items| {
        assert k in rows[n - 1];
        assert items[..n] == items[..n - 1] + [items[n - 1]];
      } else {
        assert k !in rows[n - 1];
      }
    }
  }

  /** A key that is absent or does not hold a list appears in no row. */
  lemma {:induction false} ColumnOfNonList(block: map<string, Value>, k: string, n: nat)
    requires k !in block || !block[k].VList?
    ensures Column(Rows(block, n), k) == []
  {
    if n > 0 {
      var rows := Rows(block, n);
      assert rows[..n - 1] == Rows(block, n - 1);
      ColumnOfNonList(block, k, n - 1);
      assert k !in rows[n - 1];
    }
  }

  /** Every column is a list exactly as long as `time`. */
  predicate Aligned(block: map<string, Value>) {
    && "time" in block
    && block["time"].VList?
    && forall k :: k in block ==> block[k].VList? && |block[k].items| == |block["time"].items|
  }

  /** Round trip on a well-formed block: normalizing and then reading every
      column back out of the rows restores the block, and the rows hold no
      other keys. */
  lemma NormalizeRoundTrip(block: map<string, Value>, k: string)
    requires Aligned(block)
    ensures NormalizeColumns(block).Success?
    ensures |NormalizeColumns(block).value| == |block["time"].items|
    ensures k in block ==> Column(NormalizeColumns(block).value, k) == block[k].items
    ensures k !in block ==> Column(NormalizeColumns(block).value, k) == []
  {
    var n := |block["time"].items|;
    assert NormalizeColumns(block).value == Rows(block, n);
    if k in block {
      ColumnOfRows(block, k, n);
      assert block[k].items[..n] == block[k].items;
    } else {
      ColumnOfNonList(block, k, n);
    }
  }

  /** With a short array (`{"time": [t0, t1], "x": [5]}`), the first row holds
      `x` and the second does not; `time` is in both. */
  lemma ShortArrayExample(t0: Value, t1: Value)
    ensures NormalizeColumns(map["time" := VList([t0, t1]), "x" := VList([VInt(5)])]) ==
      Success([map["time" := t0, "x" := VInt(5)], map["time" := t1]])
  {
    var block := map["time" := VList([t0, t1]), "x" := VList([VInt(5)])];
    var rows := NormalizeColumns(block).value;
    assert |rows| == 2;
    assert rows[0].Keys == {"time", "x"};
    assert rows[0] == map["time" := t0, "x" := VInt(5)];
    assert rows[1].Keys == {"time"};
    assert rows[1] == map["time" := t1];
    assert rows == [rows[0], rows[1]];
  }
}

=== FILE: wrappers.dfy ===
/** Shared vocabulary for the Python semantics the model needs everywhere:
    `Optional` values, calls that raise, and the `min`/`max` builtins behind
    the count clamps and the slice bounds. */
module Wrappers {

  /** Python's `Optional[T]`: a value or `None`. */
  datatype Option<+T> = None | Some(value: T) {

    /** The wrapped value, or `fallback` in place of `None`. */
    function ValueOr(fallback: T): T {
      match this
      case Some(v) => v
      case None => fallback
    }
  }

  /** A call that either returns `value` or raises `error`. The three members
      let `:-` stop at the first raise, as an uncaught exception does. */
  datatype Result<+T, +E> = Success(value: T) | Failure(error: E) {

    predicate IsFailure() {
      Failure?
    }

    function PropagateFailure<U>(): Result<U, E>
      requires Failure?
    {
      Failure(error)
    }

    function Extract(): T
      requires Success?
    {
      value
    }
  }

  /** Python's `min(a, b)` on integers. */
  function Min(a: int, b: int): int {
    if a <= b then a else b
  }

  /** Python's `max(a, b)` on integers. */
  function Max(a: int, b: int): int {
    if a >= b then a else b
  }
}
